=== FILE: README.md ===
# Car-parts shop bot: cart and menu core

A Dafny model of the logic under the chat plumbing of `telegram_cars_bot.py`, a
single-file shop bot. A user walks brand → model → option (tire origin or part),
adds priced items to a per-user cart, views the cart and checks out. Checkout
sends an order summary to one administrator.

What is modelled:

- **Cart document** (`CartStore`). It is a map from the string form of a user id
  to a cart `{items}`. `get_cart` creates the cart on first use, `update_cart`
  replaces it and `clear_cart` removes it. Each store call loads the whole
  document; `update_cart` and `clear_cart` always save it back, while `get_cart`
  saves only when it creates a missing cart. The model treats load and save as
  the identity, so each call is a pure function from document to document.
- **Command language** (`Text`, `Commands`). Buttons carry `|`-separated
  callback data. `Parse` is the router's decision chain: exact matches and
  prefixes in the router's order, then the fixed-arity `split` and tuple
  unpacking. `Encode` is the f-string each button is built with. Python's
  `split` with and without `maxsplit`, `str(int)` and `int(str)` are modelled
  explicitly.
- **Keyboards** (`Keyboards`). These are pure functions from the static
  catalog (`Catalog`) to rows of callback data. A catalog is a list of
  key-value tables; properties over arbitrary catalogs assume `WellFormed`:
  no key repeats in a table, as in the dict literals the bot ships, and no
  label holds the separator.
- **Summaries and checkout** (`Orders`). The total is the sum of `price * qty`,
  with defaults 0 and 1 for a missing field. Checkout has three outcomes; the
  administrator send is the boolean `delivered`.
- **Router** (`Router`). `Route` is one step `(document, user, data) →
  (document, screen)`. `Run` folds it over a sequence of presses; each press
  carries its own `delivered` flag, so a failed checkout can be followed by a
  successful one.
- **Scenarios**. End-to-end properties of presses: what a button does to the
  document, stated on raw callback data or on the keyboards the bot shows.

The model follows the code as written, including where it raises. In
particular, the model-list builder `models_keyboard` reads its loop variable `m`
at line 127, before the `for` loop at line 128 binds it. Python raises
`UnboundLocalError` there. So the `car|…` and `back_models|…` branches never
show a model list: in this model they end in `Failed(UnboundModelName)` and
leave the document unchanged.

Other exceptions that escape the handler are modelled as `Failed` screens too:

- a tuple unpacking with the wrong number of `split` fields;
- `add_item` data with more than six fields;
- a price that `int()` rejects.

An `add_item` with fewer than six fields is the one handled rejection.

## Model

| member | source | states |
|---|---|---|
| Text.Split | telegram_cars_bot.py:228 | splitting at every separator gives one more field than there are separators, no field holds a separator, and joining the fields gives the input back |
| Text.SplitN | telegram_cars_bot.py:205-217 | splitting at the first n separators gives at most n+1 fields; only the last may hold separators; joined they give the input back; with few separators it equals the full split |
| Text.SplitJoin | telegram_cars_bot.py:228-233 | splitting the joined fields of a button gives those fields back when none holds the separator |
| Text.SplitNJoin | telegram_cars_bot.py:209-217 | the `maxsplit` split recovers n+1 joined fields when only the last may hold the separator |
| Text.ParseIntToString | telegram_cars_bot.py:234 | `int()` of a price written by `str()` returns that price |
| Text.IntToStringInjective | telegram_cars_bot.py:97 | different user ids get different document keys |
| Catalog.Lookup | telegram_cars_bot.py:153 | a dictionary `get` finds a value exactly when some entry has the key, and the value is that entry's |
| Catalog.QuotePart | telegram_cars_bot.py:216-224 | the light-back key is renamed to its foreign variant, priced from the table or 205; any other key keeps its name, priced from the table or 100 |
| Catalog.DefaultIsWellFormed | telegram_cars_bot.py:56-74 | the shipped brand, tire and part tables, written as dict literals, repeat no key in any table, and no brand, model, origin, size or part name holds the separator |
| CartStore.GetCart | telegram_cars_bot.py:95-101 | a missing cart is created empty and stored; an existing one is returned with the document unchanged; no other entry changes |
| CartStore.UpdateCart | telegram_cars_bot.py:104-107 | only the user's entry is set to the given cart; every other entry is unchanged |
| CartStore.ClearCart | telegram_cars_bot.py:110-113 | only the user's entry is removed; a missing entry leaves the document unchanged |
| CartStore.GetCartIdempotent | telegram_cars_bot.py:95-101 | a second `get_cart` sees the same cart and stores nothing new |
| CartStore.ClearCartIdempotent | telegram_cars_bot.py:110-113 | clearing twice is clearing once |
| CartStore.GetAfterClear | telegram_cars_bot.py:95-113 | after a clear, `get_cart` returns the empty cart and stores it |
| CartStore.OtherUserUntouched | telegram_cars_bot.py:97-112 | a change confined to one user's key never alters another user's entry |
| Commands.ParseEncode | telegram_cars_bot.py:198-266 | the router reads the data of every button back as the command the button was built from |
| Commands.Parse | telegram_cars_bot.py:226-233 | the router answers an add-item as invalid only when its data splits into fewer than six fields |
| Commands.ParseUnrecognized | telegram_cars_bot.py:198-269 | exactly the data that is none of the four command words and starts with none of the seven command prefixes reaches the fallback reply |
| Commands.ParseModelFields | telegram_cars_bot.py:208-211 | `model…` data with at least two separators selects the model named by the two-way split; with fewer, the unpacking raises |
| Commands.ParseTireOriginFields | telegram_cars_bot.py:212-214 | `tires_type…` data with at least three separators selects that origin; with fewer, the unpacking raises |
| Commands.ParsePartFields | telegram_cars_bot.py:216-217 | `part…` data with at least three separators selects that part; with fewer, the unpacking raises |
| Commands.ParseBackModelOptionsFields | telegram_cars_bot.py:264-267 | `back_model_options…` data with at least two separators goes back to those options; with fewer, the unpacking raises |
| Commands.EncodeArity | telegram_cars_bot.py:119-168 | the callback data every button is built with holds at least as many separators as the router's `split` of it needs; the four command words hold none; the add-item button, unpacked into exactly six names at line 233, holds exactly five when its text fields are separator-free |
| Keyboards.MainMenuKeyboard | telegram_cars_bot.py:118-122 | one select-brand button per brand in catalog order, then view-cart; rows of one or two; read row by row they give that list |
| Keyboards.FlattenInPairs | telegram_cars_bot.py:121 | cutting a list into rows of two and reading the rows back gives the list |
| Keyboards.ModelOptionsKeyboard | telegram_cars_bot.py:135-148 | nine single-button rows: two tire origins, four parts, back to the model list, main menu, cart |
| Keyboards.TireSizesKeyboard | telegram_cars_bot.py:151-160 | one add-item button per size of the origin, in table order, named after the origin with the size as meta and the table price; then back and cart; an unknown origin gives only those two |
| Keyboards.PartConfirmKeyboard | telegram_cars_bot.py:163-170 | the add button carries an add-item command for car, model, part name, meta "1" and the quoted price, followed by back and cart |
| Keyboards.CartKeyboard | telegram_cars_bot.py:173-180 | a non-empty cart gets exactly three rows, checkout, clear and back-to-main in that order; an empty cart gets back-to-main alone |
| Orders.TotalAppend | telegram_cars_bot.py:284-287 | appending an item adds its `price * qty` to the total |
| Orders.CartLines | telegram_cars_bot.py:279-289 | the summary has one line per item, numbered from 1 in cart order, showing its car, model, name, meta, quantity and `price * qty`, then the total line |
| Orders.CartLinesAddUp | telegram_cars_bot.py:279-289 | the total line equals the sum of the subtotals shown on the item lines above it |
| Orders.Handle | telegram_cars_bot.py:303 | the order header names the username when it is set and non-empty, otherwise the first name |
| Orders.Summarize | telegram_cars_bot.py:279-289 | the summary loop gives one numbered line per item, then a total line; the total is the sum of `price * qty` |
| Orders.OrderLines | telegram_cars_bot.py:303-311 | the administrator's message has a header naming the sender, one line per item and a total line |
| Orders.Checkout | telegram_cars_bot.py:294-324 | empty cart: nothing sent, only the get-or-create effect; send fails: document unchanged; send succeeds: only the user's entry removed; the message sent is the order summary |
| Router.ShowCart | telegram_cars_bot.py:272-291 | the cart view creates a missing cart; it shows the empty screen exactly when there are no items and otherwise lists the cart; the keyboard follows the cart |
| Router.CartCommand | telegram_cars_bot.py:327-343 | /cart creates a missing cart and lists it like the cart view |
| Router.NewItem | telegram_cars_bot.py:237-244 | an appended item carries the button's price as its unit price and quantity 1, so its subtotal is that price |
| Router.Dispatch | telegram_cars_bot.py:197-269 | only the pressing user's entry can change; only view, add, clear and checkout change anything; the fallback answers exactly the unrecognised data; exactly the model-list branches and parse errors fail |
| Router.Route | telegram_cars_bot.py:191-269 | the same properties for raw callback data |
| Scenarios.AddItemOutcomes | telegram_cars_bot.py:226-251 | fewer than six fields: rejected, document unchanged; more than six or a non-integer price: raises, document unchanged; six fields with an integer price: exactly one item of quantity 1 is appended after the existing ones |
| Scenarios.AddItemShort | telegram_cars_bot.py:226-233 | add-item data with fewer than six fields is answered as invalid and the document is unchanged |
| Scenarios.AddItemLong | telegram_cars_bot.py:226-234 | add-item data with more than six fields raises in the unpacking and the document is unchanged |
| Scenarios.AddItemBadPrice | telegram_cars_bot.py:226-235 | six fields whose price is not an integer raise in the conversion and the document is unchanged |
| Scenarios.AddItemAccepted | telegram_cars_bot.py:226-251 | six fields with an integer price append exactly one item, built from the fields, with quantity 1, after the existing ones |
| Scenarios.AddItemTotal | telegram_cars_bot.py:226-249 | pressing an add-item button raises the cart total by exactly the button's price |
| Scenarios.ModelListFails | telegram_cars_bot.py:125-132 | the select-brand and back-to-models commands always raise and change nothing |
| Scenarios.OtherUsersUnaffected | telegram_cars_bot.py:191-269 | no press by one user changes another user's cart |
| Scenarios.ClearThenView | telegram_cars_bot.py:252-277 | clear then view shows the empty cart with only back-to-main, whatever the cart held, and stores an empty cart |
| Scenarios.CheckoutOutcomes | telegram_cars_bot.py:256-258 | the checkout press ends in exactly one of the three checkout outcomes; after a successful send the next `get_cart` is empty |
| Scenarios.AddsAccumulate | telegram_cars_bot.py:244-249 | a run of add-item presses appends one item per press, in press order, after the items already there |
| Scenarios.DispatchCount | telegram_cars_bot.py:197-269 | every action other than a clear and a successful checkout adds one item for an accepted add-item and none otherwise; rejected add-items, navigation, views and failed or empty checkouts keep the count |
| Scenarios.CountAccumulates | telegram_cars_bot.py:191-269 | over presses of any kind none of which is a clear or a successful checkout, the item count grows by the number of accepted add-item presses |
| Scenarios.CountSinceClear | telegram_cars_bot.py:252-255 | after a clear press, the item count equals the number of accepted add-item presses since, whatever else was pressed in between |
| Scenarios.CountSinceCheckout | telegram_cars_bot.py:314-324 | after a checkout press whose send succeeds, the item count equals the number of accepted add-item presses since, whatever else was pressed in between |
| Scenarios.TireButtonAdds | telegram_cars_bot.py:151-157 | pressing a tire-size button appends that tire at its table price |
| Scenarios.OptionButtonsRoundTrip | telegram_cars_bot.py:135-148 | each options button reads back as its tire origin, part or navigation command |
| Scenarios.PartButtonShows | telegram_cars_bot.py:216-225 | a part button shows the confirm screen at the quoted price and leaves the document as it was |
| Scenarios.ConfirmButtonAdds | telegram_cars_bot.py:163-164 | the confirm button of a quoted part, pressed, appends that part with meta "1", its quoted price and quantity 1 after the existing items |
| Scenarios.DefaultPartsPricedFromTable | telegram_cars_bot.py:69-74 | with the shipped tables every part button is priced from the table (205, 120, 250, 200), never by a fallback |
| Scenarios.TireThenPartTotal | telegram_cars_bot.py:279-289 | a 185 tire then a part quoted 120 give a cart view of two lines with subtotals 185 and 120 and a total of 305 |
| Scenarios.DefaultTireThenMirror | telegram_cars_bot.py:63-74 | with the shipped catalog, a foreign 185 tire and a side mirror give a total of 305 |

## Left out

- Disk I/O in `load_carts`/`save_carts` (lines 78-90). JSON encoding and the file are not modelled. Each store call loads the document; `update_cart`, `clear_cart` and a `get_cart` that creates the cart save it back; reloading is assumed to give the saved document back. The "missing or corrupt file reads as empty" recovery is not modelled.
- Messaging calls (`query.answer`, `edit_text`, `reply_text`, `send_message`), `ApplicationBuilder`, handler registration in `main`, and logging. These are foreign asynchronous calls. The administrator send is only the `delivered` flag. Edit and reply are not told apart; both are a `Screen`.
- The `/start` and `/help` commands. Both only send static text with the main menu or no keyboard.
- Display text: the Persian messages, button labels and the rendering of summary lines. Screens carry structured values and buttons carry only their callback data.
- Environment configuration and the start-up `RuntimeError`s (lines 40-49).
- Concurrency: two presses racing on the shared file (last writer wins). Presses are modelled one at a time.
- Text.ParseInt accepts only an optional sign followed by ASCII digits. Python's `int()` also strips surrounding whitespace, allows `_` between digits and accepts non-ASCII decimal digits. Such price fields count as `BadPrice` here but are accepted by the bot. Buttons the bot builds never contain them.
- Stored-document shapes the bot never writes. The model does not cover a cart without an `items` list, item fields other than price and quantity missing, or non-integer JSON values. Price and quantity may be absent and default to 0 and 1.
- Exceptions other than the three modelled faults, such as a failing `edit_text`.

=== FILE: cart_store.dfy ===
/**
 The cart document: a map from the string form of a user id to that user's
 cart. Each store operation loads the whole document; `update_cart` and
 `clear_cart` always save it back, while `get_cart` saves only when it creates a
 missing cart. The model treats load and save as the identity on documents, so
 each operation is a function from document to document.
 */
module CartStore {
  import opened Wrappers
  import opened Text

  /** One cart line. `price` and `qty` are read with defaults 0 and 1, so a
      stored item may lack them. */
  datatype Item = Item(car: string, model: string, name: string, meta: string,
                       price: Option<int>, qty: Option<int>)

  function UnitPrice(it: Item): int { it.price.GetOr(0) }

  function Quantity(it: Item): int { it.qty.GetOr(1) }

  function Subtotal(it: Item): int { UnitPrice(it) * Quantity(it) }

  datatype Cart = Cart(items: seq<Item>)

  /** The cart `{"items": []}` created on first access. */
  const EmptyCart: Cart := Cart([])

  type Doc = map<string, Cart>

  /** `str(user_id)`: the document key of a user. */
  function Key(userId: int): string
  {
    IntToString(userId)
  }

  /** `doc` and `doc'` agree on every key other than `key`. */
  ghost predicate SameExcept(doc: Doc, doc': Doc, key: string)
  {
    forall k :: k != key ==> (k in doc <==> k in doc') && (k in doc ==> doc[k] == doc'[k])
  }

  datatype Fetched = Fetched(doc: Doc, cart: Cart)

  /** `get_cart`: the user's cart, first inserting (and saving) an empty cart
      when the user has none. */
  function GetCart(doc: Doc, userId: int): (r: Fetched)
    ensures Key(userId) in r.doc && r.doc[Key(userId)] == r.cart
    ensures Key(userId) in doc ==> r.doc == doc && r.cart == doc[Key(userId)]
    ensures Key(userId) !in doc ==> r.cart == EmptyCart
    ensures r.doc.Keys == doc.Keys + {Key(userId)}
    ensures SameExcept(doc, r.doc, Key(userId))
  {
    var key := Key(userId);
    if key !in doc then Fetched(doc[key := EmptyCart], EmptyCart)
    else Fetched(doc, doc[key])
  }

  /** `update_cart`: replaces the user's cart. */
  function UpdateCart(doc: Doc, userId: int, cart: Cart): (r: Doc)
    ensures Key(userId) in r && r[Key(userId)] == cart
    ensures r.Keys == doc.Keys + {Key(userId)}
    ensures SameExcept(doc, r, Key(userId))
  {
    doc[Key(userId) := cart]
  }

  /** `clear_cart`: removes the user's entry; a missing entry is not an error. */
  function ClearCart(doc: Doc, userId: int): (r: Doc)
    ensures Key(userId) !in r
    ensures r.Keys == doc.Keys - {Key(userId)}
    ensures SameExcept(doc, r, Key(userId))
    ensures Key(userId) !in doc ==> r == doc
  {
    doc - {Key(userId)}
  }

  /** The items a user's cart holds, reading a missing cart as empty. */
  function ItemsOf(doc: Doc, userId: int): seq<Item>
  {
    GetCart(doc, userId).cart.items
  }

  /** A second `get_cart` right after a first sees the same cart and saves nothing new. */
  lemma GetCartIdempotent(doc: Doc, userId: int)
    ensures GetCart(GetCart(doc, userId).doc, userId) == GetCart(doc, userId)
  {
  }

  lemma ClearCartIdempotent(doc: Doc, userId: int)
    ensures ClearCart(ClearCart(doc, userId), userId) == ClearCart(doc, userId)
  {
  }

  /** After a clear the next `get_cart` hands back the empty cart and stores it. */
  lemma GetAfterClear(doc: Doc, userId: int)
    ensures GetCart(ClearCart(doc, userId), userId).cart == EmptyCart
    ensures GetCart(ClearCart(doc, userId), userId).doc == doc[Key(userId) := EmptyCart]
  {
  }

  /** Operations on one user's cart never touch another user's entry. */
  lemma OtherUserUntouched(doc: Doc, doc': Doc, userId: int, other: int)
    requires SameExcept(doc, doc', Key(userId))
    requires other != userId
    ensures Key(other) in doc <==> Key(other) in doc'
    ensures Key(other) in doc ==> doc'[Key(other)] == doc[Key(other)]
  {
    IntToStringInjective(userId, other);
  }
}

=== FILE: catalog.dfy ===
/**
 The static catalog: brands with their models, tire prices per origin and
 size, and the flat part price table. Python dictionaries keep insertion
 order, so each table is an ordered list of (key, value) pairs.
 */
module Catalog {
  import opened Wrappers
  import opened Text

  type Table<V> = seq<(string, V)>

  /** `table.get(key)`: the value under the first entry with that key, which
      is the dict's value when keys are distinct (see `WellFormed`). */
  function Lookup<V>(table: Table<V>, key: string): (r: Option<V>)
    ensures r.None? <==> forall i :: 0 <= i < |table| ==> table[i].0 != key
    ensures r.Some? ==> exists i :: 0 <= i < |table| && table[i] == (key, r.value)
  {
    if |table| == 0 then None
    else if table[0].0 == key then Some(table[0].1)
    else
      var r := Lookup(table[1..], key);
      assert forall i :: 1 <= i < |table| ==> table[i] == table[1..][i - 1];
      r
  }

  predicate DistinctKeys<V>(table: Table<V>)
  {
    forall i, j :: 0 <= i < j < |table| ==> table[i].0 != table[j].0
  }

  /** With distinct keys every entry is found by its own key. */
  lemma {:induction false} LookupEntry<V>(table: Table<V>, i: nat)
    requires DistinctKeys(table)
    requires i < |table|
    ensures Lookup(table, table[i].0) == Some(table[i].1)
  {
    if i > 0 {
      assert table[1..][i - 1] == table[i];
      LookupEntry(table[1..], i - 1);
    }
  }

  datatype Catalog = Catalog(
    cars: Table<seq<string>>,    // brand -> models
    tires: Table<Table<int>>,    // origin -> size -> price
    parts: Table<int>)           // part name -> price

  const Foreign: string := "خارجی"
  const Domestic: string := "داخلی"

  const LightBack: string := "لایت\U{200C}بک"
  const ForeignLightBack: string := "لایت\U{200C}بک خارجی"
  const SideMirror: string := "آینه بغل"
  const Windshield: string := "شیشه جلو"
  const RearWindow: string := "شیشه عقب"

  const Default: Catalog := Catalog(
    [("پراید", ["111", "131", "141"]),
     ("پژو", ["405", "پارس", "207"]),
     ("سمند", ["سورن", "سورن پلاس"])],
    [(Foreign, [("185", 185), ("195", 195), ("205", 205)]),
     (Domestic, [("185", 185), ("195", 195), ("205", 205)])],
    [(ForeignLightBack, 205),
     (SideMirror, 120),
     (Windshield, 250),
     (RearWindow, 200)])

  /** The name and price the confirm screen shows for a part button: the
      light-back key is renamed to its foreign variant (price fallback 205);
      any other key keeps its name (price fallback 100). */
  function QuotePart(cat: Catalog, partKey: string): (r: (string, int))
    ensures partKey == LightBack ==> r.0 == ForeignLightBack
    ensures partKey != LightBack ==> r.0 == partKey
    ensures Lookup(cat.parts, r.0).Some? ==> r.1 == Lookup(cat.parts, r.0).value
    ensures Lookup(cat.parts, r.0).None? ==> r.1 == (if partKey == LightBack then 205 else 100)
  {
    if partKey == LightBack then (ForeignLightBack, Lookup(cat.parts, ForeignLightBack).GetOr(205))
    else (partKey, Lookup(cat.parts, partKey).GetOr(100))
  }

  /** Catalog labels never contain the command separator, which the command
      encoding relies on. */
  predicate DelimFreeLabels(cat: Catalog)
  {
    && (forall i :: 0 <= i < |cat.cars| ==>
          Delim !in cat.cars[i].0 && AllFree(cat.cars[i].1, Delim))
    && (forall i :: 0 <= i < |cat.tires| ==>
          Delim !in cat.tires[i].0 &&
          forall j :: 0 <= j < |cat.tires[i].1| ==> Delim !in cat.tires[i].1[j].0)
    && (forall i :: 0 <= i < |cat.parts| ==> Delim !in cat.parts[i].0)
  }

  /** The shape a catalog written as Python dict literals has, and that the
      command encoding needs: no key twice in any table (so the first entry
      for a key is its only one, as in a dict) and no label holding the
      separator. */
  predicate WellFormed(cat: Catalog)
  {
    && DistinctKeys(cat.cars) && DistinctKeys(cat.tires) && DistinctKeys(cat.parts)
    && (forall i :: 0 <= i < |cat.tires| ==> DistinctKeys(cat.tires[i].1))
    && DelimFreeLabels(cat)
  }

  lemma DefaultIsWellFormed()
    ensures WellFormed(Default)
    ensures DistinctKeys(Default.cars) && DistinctKeys(Default.tires) && DistinctKeys(Default.parts)
  {
    DefaultKeysDistinct();
    DefaultIsDelimFree();
  }

  lemma DefaultKeysDistinct()
    ensures DistinctKeys(Default.cars) && DistinctKeys(Default.tires) && DistinctKeys(Default.parts)
    ensures forall i :: 0 <= i < |Default.tires| ==> DistinctKeys(Default.tires[i].1)
  {
    var sizes := [("185", 185), ("195", 195), ("205", 205)];
    assert DistinctKeys(sizes);
    assert Default.tires[0].1 == sizes && Default.tires[1].1 == sizes;
  }

  lemma DefaultIsDelimFree()
    ensures DelimFreeLabels(Default)
  {
  }
}

=== FILE: commands.dfy ===
/**
 The callback command language. `Parse` is the decision chain at the top of
 the callback router: exact matches and prefixes tried in the router's order,
 each followed by the fixed-arity split and tuple unpacking the router does.
 `Encode` is the f-string each keyboard button is built with.
 */
module Commands {
  import opened Wrappers
  import opened Text

  /** An exception that escapes the router's handler. */
  datatype Fault =
    | UnboundModelName   // the model list builder reads its loop variable before the loop binds it
    | WrongFieldCount    // tuple unpacking of a split with the wrong number of fields
    | BadPrice           // `int()` of a price field that is not an integer

  datatype Command =
    | ViewCart
    | BackMain
    | SelectCar(car: string)
    | SelectModel(car: string, model: string)
    | SelectTireOrigin(car: string, model: string, origin: string)
    | SelectPart(car: string, model: string, partKey: string)
    | AddItem(car: string, model: string, name: string, meta: string, price: int)
    | ShortAddItem                 // `add_item|…` with fewer than six fields
    | ClearCartCmd
    | CheckoutCmd
    | BackModels(car: string)
    | BackModelOptions(car: string, model: string)
    | Malformed(fault: Fault)      // parsing raised
    | Unrecognized                 // none of the router's cases applies

  /** `_, a, b, … = data.split("|", n)` needs exactly `n + 1` fields. */
  function Fields(data: string, n: nat): Option<seq<string>>
  {
    var f := SplitN(data, Delim, n);
    if |f| == n + 1 then Some(f) else None
  }

  function Parse(data: string): (c: Command)
    ensures c.ShortAddItem? ==> |Split(data, Delim)| < 6
  {
    if data == "view_cart" then ViewCart
    else if data == "back_main" then BackMain
    else if StartsWith(data, "car|") then
      match Fields(data, 1)
      case Some(f) => SelectCar(f[1])
      case None => Malformed(WrongFieldCount)
    else if StartsWith(data, "model|") then
      match Fields(data, 2)
      case Some(f) => SelectModel(f[1], f[2])
      case None => Malformed(WrongFieldCount)
    else if StartsWith(data, "tires_type|") then
      match Fields(data, 3)
      case Some(f) => SelectTireOrigin(f[1], f[2], f[3])
      case None => Malformed(WrongFieldCount)
    else if StartsWith(data, "part|") then
      match Fields(data, 3)
      case Some(f) => SelectPart(f[1], f[2], f[3])
      case None => Malformed(WrongFieldCount)
    else if StartsWith(data, "add_item|") then
      var parts := Split(data, Delim);
      if |parts| < 6 then ShortAddItem
      else if |parts| > 6 then Malformed(WrongFieldCount)
      else match ParseInt(parts[5])
        case Some(price) => AddItem(parts[1], parts[2], parts[3], parts[4], price)
        case None => Malformed(BadPrice)
    else if data == "clear_cart" then ClearCartCmd
    else if data == "checkout" then CheckoutCmd
    else if StartsWith(data, "back_models|") then
      match Fields(data, 1)
      case Some(f) => BackModels(f[1])
      case None => Malformed(WrongFieldCount)
    else if StartsWith(data, "back_model_options|") then
      match Fields(data, 2)
      case Some(f) => BackModelOptions(f[1], f[2])
      case None => Malformed(WrongFieldCount)
    else Unrecognized
  }

  /** The commands a keyboard button can carry. */
  predicate IsButton(c: Command)
  {
    !(c.ShortAddItem? || c.Malformed? || c.Unrecognized?)
  }

  /** The callback data a button carrying `c` is built with. */
  function Encode(c: Command): string
    requires IsButton(c)
  {
    match c
    case ViewCart => "view_cart"
    case BackMain => "back_main"
    case SelectCar(car) => Join(["car", car], Delim)
    case SelectModel(car, model) => Join(["model", car, model], Delim)
    case SelectTireOrigin(car, model, origin) => Join(["tires_type", car, model, origin], Delim)
    case SelectPart(car, model, partKey) => Join(["part", car, model, partKey], Delim)
    case AddItem(car, model, name, meta, price) =>
      Join(["add_item", car, model, name, meta, IntToString(price)], Delim)
    case ClearCartCmd => "clear_cart"
    case CheckoutCmd => "checkout"
    case BackModels(car) => Join(["back_models", car], Delim)
    case BackModelOptions(car, model) => Join(["back_model_options", car, model], Delim)
  }

  /** The fields a command's encoding must keep free of the separator for the
      router to read it back. The last field of a `maxsplit` command may hold
      separators; every field of an `add_item` command must not. */
  predicate Decodable(c: Command)
  {
    match c
    case SelectModel(car, _) => Delim !in car
    case SelectTireOrigin(car, model, _) => Delim !in car && Delim !in model
    case SelectPart(car, model, _) => Delim !in car && Delim !in model
    case AddItem(car, model, name, meta, _) =>
      Delim !in car && Delim !in model && Delim !in name && Delim !in meta
    case BackModelOptions(car, _) => Delim !in car
    case _ => true
  }

  /** `Encode(...)` begins with the command word and a separator. */
  lemma JoinStartsWith(word: string, rest: seq<string>)
    requires |rest| >= 1
    ensures StartsWith(Join([word] + rest, Delim), word + [Delim])
  {
    JoinCons(word, rest, Delim);
    var s := Join([word] + rest, Delim);
    assert s[..|word| + 1] == word + [Delim];
  }

  /** A prefix fixes the characters it covers. */
  lemma PrefixChar(s: string, p: string, i: nat)
    requires StartsWith(s, p) && i < |p|
    ensures s[i] == p[i]
  {
    assert s[..|p|][i] == s[i];
  }

  /** Two strings that differ at position `i` cannot share a prefix covering it. */
  lemma NotPrefix(s: string, p: string, i: nat)
    requires i < |p| && i < |s| && s[i] != p[i]
    ensures !StartsWith(s, p)
  {
  }

  /** A command word starting with `b` passes by the four prefixes tested
      before `add_item|` and that one too. */
  lemma PassesEarlyPrefixes(s: string)
    requires |s| > 0 && s[0] == 'b'
    ensures !StartsWith(s, "car|") && !StartsWith(s, "model|")
    ensures !StartsWith(s, "tires_type|") && !StartsWith(s, "part|")
    ensures !StartsWith(s, "add_item|")
  {
    NotPrefix(s, "car|", 0);
    NotPrefix(s, "model|", 0);
    NotPrefix(s, "tires_type|", 0);
    NotPrefix(s, "part|", 0);
    NotPrefix(s, "add_item|", 0);
  }

  lemma ParseEncodeCar(car: string)
    ensures Parse(Encode(SelectCar(car))) == SelectCar(car)
  {
    JoinStartsWith("car", [car]);
    SplitNJoin(["car", car], Delim, 1);
  }

  lemma ParseEncodeModel(car: string, model: string)
    requires Delim !in car
    ensures Parse(Encode(SelectModel(car, model))) == SelectModel(car, model)
  {
    var s := Encode(SelectModel(car, model));
    JoinStartsWith("model", [car, model]);
    PrefixChar(s, "model|", 0);
    NotPrefix(s, "car|", 0);
    SplitNJoin(["model", car, model], Delim, 2);
  }

  lemma ParseEncodeTireOrigin(car: string, model: string, origin: string)
    requires Delim !in car && Delim !in model
    ensures Parse(Encode(SelectTireOrigin(car, model, origin))) == SelectTireOrigin(car, model, origin)
  {
    var s := Encode(SelectTireOrigin(car, model, origin));
    JoinStartsWith("tires_type", [car, model, origin]);
    PrefixChar(s, "tires_type|", 0);
    NotPrefix(s, "car|", 0);
    NotPrefix(s, "model|", 0);
    SplitNJoin(["tires_type", car, model, origin], Delim, 3);
  }

  lemma ParseEncodePart(car: string, model: string, partKey: string)
    requires Delim !in car && Delim !in model
    ensures Parse(Encode(SelectPart(car, model, partKey))) == SelectPart(car, model, partKey)
  {
    var s := Encode(SelectPart(car, model, partKey));
    JoinStartsWith("part", [car, model, partKey]);
    PrefixChar(s, "part|", 0);
    NotPrefix(s, "car|", 0);
    NotPrefix(s, "model|", 0);
    NotPrefix(s, "tires_type|", 0);
    SplitNJoin(["part", car, model, partKey], Delim, 3);
  }

  lemma ParseEncodeAddItem(car: string, model: string, name: string, meta: string, price: int)
    requires Delim !in car && Delim !in model && Delim !in name && Delim !in meta
    ensures Parse(Encode(AddItem(car, model, name, meta, price))) == AddItem(car, model, name, meta, price)
  {
    var s := Encode(AddItem(car, model, name, meta, price));
    var fields := ["add_item", car, model, name, meta, IntToString(price)];
    JoinStartsWith("add_item", fields[1..]);
    assert fields == ["add_item"] + fields[1..];
    PrefixChar(s, "add_item|", 0);
    NotPrefix(s, "car|", 0);
    NotPrefix(s, "model|", 0);
    NotPrefix(s, "tires_type|", 0);
    NotPrefix(s, "part|", 0);
    IntToStringDelimFree(price);
    SplitJoin(fields, Delim);
    ParseIntToString(price);
  }

  lemma ParseEncodeBackModels(car: string)
    ensures Parse(Encode(BackModels(car))) == BackModels(car)
  {
    var s := Encode(BackModels(car));
    JoinStartsWith("back_models", [car]);
    PrefixChar(s, "back_models|", 0);
    PassesEarlyPrefixes(s);
    SplitNJoin(["back_models", car], Delim, 1);
  }

  lemma ParseEncodeBackModelOptions(car: string, model: string)
    requires Delim !in car
    ensures Parse(Encode(BackModelOptions(car, model))) == BackModelOptions(car, model)
  {
    var s := Encode(BackModelOptions(car, model));
    JoinStartsWith("back_model_options", [car, model]);
    PrefixChar(s, "back_model_options|", 0);
    PrefixChar(s, "back_model_options|", 10);
    PassesEarlyPrefixes(s);
    NotPrefix(s, "back_models|", 10);
    SplitNJoin(["back_model_options", car, model], Delim, 2);
  }

  /** The four commands without parameters are matched exactly. */
  lemma ParseEncodeFixed(c: Command)
    requires c.ViewCart? || c.BackMain? || c.ClearCartCmd? || c.CheckoutCmd?
    ensures Parse(Encode(c)) == c
  {
    if c.ClearCartCmd? {
      NotPrefix("clear_cart", "car|", 1);
      NotPrefix("clear_cart", "model|", 0);
      NotPrefix("clear_cart", "tires_type|", 0);
      NotPrefix("clear_cart", "part|", 0);
      NotPrefix("clear_cart", "add_item|", 0);
    } else if c.CheckoutCmd? {
      NotPrefix("checkout", "car|", 1);
      NotPrefix("checkout", "model|", 0);
      NotPrefix("checkout", "tires_type|", 0);
      NotPrefix("checkout", "part|", 0);
      NotPrefix("checkout", "add_item|", 0);
    }
  }

  /** The router reads every button back as the command it was built from. */
  lemma ParseEncode(c: Command)
    requires IsButton(c) && Decodable(c)
    ensures Parse(Encode(c)) == c
  {
    match c
    case SelectCar(car) => ParseEncodeCar(car);
    case SelectModel(car, model) => ParseEncodeModel(car, model);
    case SelectTireOrigin(car, model, origin) => ParseEncodeTireOrigin(car, model, origin);
    case SelectPart(car, model, partKey) => ParseEncodePart(car, model, partKey);
    case AddItem(car, model, name, meta, price) => ParseEncodeAddItem(car, model, name, meta, price);
    case BackModels(car) => ParseEncodeBackModels(car);
    case BackModelOptions(car, model) => ParseEncodeBackModelOptions(car, model);
    case _ => ParseEncodeFixed(c);
  }

  // ---------------------------------------------------------------------------
  // The router's branches on arbitrary data

  /** Data some branch of the router handles: one of the four command words,
      or one of the seven command prefixes. */
  predicate Known(data: string)
  {
    || data == "view_cart" || data == "back_main" || data == "clear_cart" || data == "checkout"
    || StartsWith(data, "car|") || StartsWith(data, "model|") || StartsWith(data, "tires_type|")
    || StartsWith(data, "part|") || StartsWith(data, "add_item|")
    || StartsWith(data, "back_models|") || StartsWith(data, "back_model_options|")
  }

  /** Exactly the data no branch handles falls through to the fallback. */
  lemma ParseUnrecognized(data: string)
    ensures Parse(data).Unrecognized? <==> !Known(data)
  {
  }

  /** `model|…` is unpacked from `split("|", 2)`: with two or more separators
      it selects the model, with fewer the unpacking raises. */
  lemma ParseModelFields(data: string)
    requires StartsWith(data, "model|")
    ensures Count(data, Delim) >= 2 ==>
      var f := SplitN(data, Delim, 2); |f| == 3 && Parse(data) == SelectModel(f[1], f[2])
    ensures Count(data, Delim) < 2 ==> Parse(data) == Malformed(WrongFieldCount)
  {
    PrefixChar(data, "model|", 0);
    NotPrefix(data, "car|", 0);
  }

  /** `tires_type|…` is unpacked from `split("|", 3)`. */
  lemma ParseTireOriginFields(data: string)
    requires StartsWith(data, "tires_type|")
    ensures Count(data, Delim) >= 3 ==>
      var f := SplitN(data, Delim, 3); |f| == 4 && Parse(data) == SelectTireOrigin(f[1], f[2], f[3])
    ensures Count(data, Delim) < 3 ==> Parse(data) == Malformed(WrongFieldCount)
  {
    PrefixChar(data, "tires_type|", 0);
    NotPrefix(data, "car|", 0);
    NotPrefix(data, "model|", 0);
  }

  /** `part|…` is unpacked from `split("|", 3)`. */
  lemma ParsePartFields(data: string)
    requires StartsWith(data, "part|")
    ensures Count(data, Delim) >= 3 ==>
      var f := SplitN(data, Delim, 3); |f| == 4 && Parse(data) == SelectPart(f[1], f[2], f[3])
    ensures Count(data, Delim) < 3 ==> Parse(data) == Malformed(WrongFieldCount)
  {
    PrefixChar(data, "part|", 0);
    NotPrefix(data, "car|", 0);
    NotPrefix(data, "model|", 0);
    NotPrefix(data, "tires_type|", 0);
  }

  /** `back_model_options|…` is unpacked from `split("|", 2)`. */
  lemma ParseBackModelOptionsFields(data: string)
    requires StartsWith(data, "back_model_options|")
    ensures Count(data, Delim) >= 2 ==>
      var f := SplitN(data, Delim, 2); |f| == 3 && Parse(data) == BackModelOptions(f[1], f[2])
    ensures Count(data, Delim) < 2 ==> Parse(data) == Malformed(WrongFieldCount)
  {
    BackModelOptionsBranch(data);
  }

  /** Proof-cost helper: data with the `back_model_options|` prefix reaches
      the last branch of the router. */
  lemma BackModelOptionsBranch(data: string)
    requires StartsWith(data, "back_model_options|")
    ensures Parse(data) == match Fields(data, 2)
      case Some(f) => BackModelOptions(f[1], f[2])
      case None => Malformed(WrongFieldCount)
  {
    PrefixChar(data, "back_model_options|", 0);
    PrefixChar(data, "back_model_options|", 6);
    PrefixChar(data, "back_model_options|", 10);
    PassesEarlyPrefixes(data);
    NotPrefix(data, "back_models|", 10);
  }

  // ---------------------------------------------------------------------------
  // Separators in encoded commands

  /** The number of separators the router's unpacking of a command needs. */
  function Arity(c: Command): nat
  {
    match c
    case SelectCar(_) => 1
    case SelectModel(_, _) => 2
    case SelectTireOrigin(_, _, _) => 3
    case SelectPart(_, _, _) => 3
    case AddItem(_, _, _, _, _) => 5
    case BackModels(_) => 1
    case BackModelOptions(_, _) => 2
    case _ => 0
  }

  /** Joining fields puts a separator between each consecutive pair. */
  lemma {:induction false} JoinCount(fields: seq<string>, sep: char)
    requires |fields| >= 1
    ensures Count(Join(fields, sep), sep) >= |fields| - 1
    ensures AllFree(fields, sep) ==> Count(Join(fields, sep), sep) == |fields| - 1
    decreases |fields|
  {
    if AllFree(fields, sep) {
      CountZero(fields[0], sep);
    }
    if |fields| > 1 {
      var rest := Join(fields[1..], sep);
      JoinCount(fields[1..], sep);
      CountConcat(fields[0], [sep] + rest, sep);
      CountConcat([sep], rest, sep);
      assert fields[0] + [sep] + rest == fields[0] + ([sep] + rest);
    }
  }

  /** Every button's data holds at least the separators its `split` needs, and
      the four command words hold none. The add-item button, whose plain
      `split` is unpacked into exactly six names, holds exactly five when its
      text fields are separator-free. */
  lemma EncodeArity(c: Command)
    requires IsButton(c)
    ensures Count(Encode(c), Delim) >= Arity(c)
    ensures Arity(c) == 0 ==> Delim !in Encode(c)
    ensures c.AddItem? && Decodable(c) ==> Count(Encode(c), Delim) == Arity(c)
  {
    match c
    case SelectCar(car) => JoinCount(["car", car], Delim);
    case SelectModel(car, model) => JoinCount(["model", car, model], Delim);
    case SelectTireOrigin(car, model, origin) => JoinCount(["tires_type", car, model, origin], Delim);
    case SelectPart(car, model, partKey) => JoinCount(["part", car, model, partKey], Delim);
    case AddItem(car, model, name, meta, price) =>
      IntToStringDelimFree(price);
      JoinCount(["add_item", car, model, name, meta, IntToString(price)], Delim);
    case BackModels(car) => JoinCount(["back_models", car], Delim);
    case BackModelOptions(car, model) => JoinCount(["back_model_options", car, model], Delim);
    case _ =>
  }
}

=== FILE: keyboards.dfy ===
/**
 The inline keyboards. Each keyboard is a list of rows; each button is its
 callback data, the encoding of the command it stands for (display labels are
 not modelled).
 */
module Keyboards {
  import opened Wrappers
  import opened Text
  import opened Catalog
  import opened CartStore
  import opened Commands

  type Keyboard = seq<seq<string>>

  /** The buttons of a keyboard, row by row. */
  function Flatten(rows: Keyboard): seq<string>
  {
    if |rows| == 0 then [] else rows[0] + Flatten(rows[1..])
  }

  /** `[xs[i : i + 2] for i in range(0, len(xs), 2)]`: the list cut into rows of two. */
  function InPairs(xs: seq<string>): (rows: Keyboard)
    ensures |rows| == (|xs| + 1) / 2
    ensures forall i :: 0 <= i < |rows| ==> 1 <= |rows[i]| <= 2
    decreases |xs|
  {
    if |xs| <= 2 then (if |xs| == 0 then [] else [xs])
    else [xs[..2]] + InPairs(xs[2..])
  }

  /** Reading the rows back in order gives the original list. */
  lemma {:induction false} FlattenInPairs(xs: seq<string>)
    ensures Flatten(InPairs(xs)) == xs
    decreases |xs|
  {
    if |xs| > 2 {
      var rows := InPairs(xs);
      assert rows[0] == xs[..2];
      assert rows[1..] == InPairs(xs[2..]);
      FlattenInPairs(xs[2..]);
      assert xs == xs[..2] + xs[2..];
    } else if |xs| > 0 {
      assert Flatten([xs]) == xs + Flatten([]);
    }
  }

  /** One `car|<brand>` button per brand, then the view-cart button. */
  function MainMenuButtons(cat: Catalog): seq<string>
  {
    seq(|cat.cars|, i requires 0 <= i < |cat.cars| => Encode(SelectCar(cat.cars[i].0)))
      + [Encode(ViewCart)]
  }

  /** `main_menu_keyboard`: the brand buttons and view-cart, two per row. */
  function MainMenuKeyboard(cat: Catalog): (kb: Keyboard)
    ensures |kb| == (|cat.cars| + 2) / 2
    ensures forall i :: 0 <= i < |kb| ==> 1 <= |kb[i]| <= 2
    ensures |Flatten(kb)| == |cat.cars| + 1
    ensures forall i :: 0 <= i < |cat.cars| ==> Flatten(kb)[i] == Encode(SelectCar(cat.cars[i].0))
    ensures Flatten(kb)[|cat.cars|] == Encode(ViewCart)
  {
    FlattenInPairs(MainMenuButtons(cat));
    InPairs(MainMenuButtons(cat))
  }

  /** The two tire origins and four part keys offered for every model. */
  const Origins: seq<string> := [Foreign, Domestic]
  const PartKeys: seq<string> := [LightBack, SideMirror, Windshield, RearWindow]

  /** `model_options_keyboard`: the two tire origins, the four parts, then
      back to the model list, the main menu and the cart, one button per row. */
  function ModelOptionsKeyboard(car: string, model: string): (kb: Keyboard)
    ensures |kb| == 9
    ensures forall i :: 0 <= i < |kb| ==> |kb[i]| == 1
    ensures forall i :: 0 <= i < 2 ==> kb[i][0] == Encode(SelectTireOrigin(car, model, Origins[i]))
    ensures forall j :: 0 <= j < 4 ==> kb[2 + j][0] == Encode(SelectPart(car, model, PartKeys[j]))
    ensures kb[6][0] == Encode(BackModels(car))
    ensures kb[7][0] == Encode(BackMain)
    ensures kb[8][0] == Encode(ViewCart)
  {
    [[Encode(SelectTireOrigin(car, model, Foreign))],
     [Encode(SelectTireOrigin(car, model, Domestic))],
     [Encode(SelectPart(car, model, LightBack))],
     [Encode(SelectPart(car, model, SideMirror))],
     [Encode(SelectPart(car, model, Windshield))],
     [Encode(SelectPart(car, model, RearWindow))],
     [Encode(BackModels(car))],
     [Encode(BackMain)],
     [Encode(ViewCart)]]
  }

  /** The cart item name of a tire of the given origin. */
  function TireName(origin: string): string
  {
    "لاستیک " + origin
  }

  /** The size table of an origin, empty for an unknown origin. */
  function Sizes(cat: Catalog, origin: string): Table<int>
  {
    Lookup(cat.tires, origin).GetOr([])
  }

  /** `tires_size_keyboard`: one add-item button per size of the origin, in
      table order, then back to the options and the cart. */
  function TireSizesKeyboard(cat: Catalog, car: string, model: string, origin: string): (kb: Keyboard)
    ensures |kb| == |Sizes(cat, origin)| + 2
    ensures Lookup(cat.tires, origin).None? ==> |kb| == 2
    ensures forall i :: 0 <= i < |kb| ==> |kb[i]| == 1
    ensures forall i :: 0 <= i < |Sizes(cat, origin)| ==>
      kb[i][0] == Encode(AddItem(car, model, TireName(origin),
                                 Sizes(cat, origin)[i].0, Sizes(cat, origin)[i].1))
    ensures kb[|kb| - 2][0] == Encode(BackModelOptions(car, model))
    ensures kb[|kb| - 1][0] == Encode(ViewCart)
  {
    var sizes := Sizes(cat, origin);
    seq(|sizes|, i requires 0 <= i < |sizes| =>
          [Encode(AddItem(car, model, TireName(origin), sizes[i].0, sizes[i].1))])
      + [[Encode(BackModelOptions(car, model))], [Encode(ViewCart)]]
  }

  /** `part_confirm_keyboard`: add one of the part (meta "1") at the quoted
      price, back to the options, the cart. */
  function PartConfirmKeyboard(car: string, model: string, name: string, price: int): (kb: Keyboard)
    ensures |kb| == 3 && |kb[0]| == 1 && |kb[1]| == 1 && |kb[2]| == 1
    ensures kb[0][0] == Encode(AddItem(car, model, name, "1", price))
    ensures kb[1][0] == Encode(BackModelOptions(car, model))
    ensures kb[2][0] == Encode(ViewCart)
  {
    [[Encode(AddItem(car, model, name, "1", price))],
     [Encode(BackModelOptions(car, model))],
     [Encode(ViewCart)]]
  }

  /** `cart_keyboard`: checkout and clear only for a non-empty cart, and
      always the way back to the main menu, last. */
  function CartKeyboard(cart: Cart): (kb: Keyboard)
    ensures [Encode(CheckoutCmd)] in kb <==> |cart.items| > 0
    ensures [Encode(ClearCartCmd)] in kb <==> |cart.items| > 0
    ensures |kb| >= 1 && kb[|kb| - 1] == [Encode(BackMain)]
    ensures |kb| == (if |cart.items| > 0 then 3 else 1)
    ensures |cart.items| > 0 ==> kb[0] == [Encode(CheckoutCmd)] && kb[1] == [Encode(ClearCartCmd)]
  {
    (if |cart.items| > 0 then [[Encode(CheckoutCmd)], [Encode(ClearCartCmd)]] else [])
      + [[Encode(BackMain)]]
  }
}

=== FILE: orders.dfy ===
/**
 The cart summary (shown by the cart view and the /cart command) and the
 checkout that forwards it to the administrator. Summary lines are kept as
 structured values; their rendering into display text is not modelled.
 */
module Orders {
  import opened Wrappers
  import opened CartStore

  /** The grand total: the sum of `price * qty` over the items. */
  function Total(items: seq<Item>): int
  {
    if |items| == 0 then 0 else Subtotal(items[0]) + Total(items[1..])
  }

  /** Adding an item at the end adds its subtotal to the total. */
  lemma {:induction false} TotalAppend(items: seq<Item>, it: Item)
    ensures Total(items + [it]) == Total(items) + Subtotal(it)
    decreases |items|
  {
    if |items| > 0 {
      assert (items + [it])[1..] == items[1..] + [it];
      TotalAppend(items[1..], it);
    }
  }

  /** The sender of an order as the messaging transport describes them. */
  datatype User = User(id: int, username: Option<string>, firstName: string)

  /** The handle shown in the order header: the username when it is set and
      non-empty, otherwise the first name. */
  function Handle(user: User): (h: string)
    ensures user.username.None? ==> h == user.firstName
    ensures user.username == Some("") ==> h == user.firstName
    ensures user.username.Some? && user.username.value != "" ==> h == user.username.value
  {
    if user.username.Some? && |user.username.value| > 0 then user.username.value else user.firstName
  }

  datatype SummaryLine =
    | Header(handle: string, userId: int)
    | ItemLine(index: nat, car: string, model: string, name: string, meta: string,
               qty: int, subtotal: int)
    | TotalLine(total: int)

  /** The numbered line of one item. */
  function LineFor(index: nat, it: Item): SummaryLine
  {
    ItemLine(index, it.car, it.model, it.name, it.meta, Quantity(it), Subtotal(it))
  }

  /** The lines of a cart summary: one per item, numbered from 1, then the total. */
  function CartLines(items: seq<Item>): (lines: seq<SummaryLine>)
    ensures |lines| == |items| + 1
    ensures forall i :: 0 <= i < |items| ==>
      && lines[i].ItemLine? && lines[i].index == i + 1
      && lines[i].car == items[i].car && lines[i].model == items[i].model
      && lines[i].name == items[i].name && lines[i].meta == items[i].meta
      && lines[i].qty == Quantity(items[i]) && lines[i].subtotal == Subtotal(items[i])
    ensures lines[|items|] == TotalLine(Total(items))
  {
    seq(|items|, i requires 0 <= i < |items| => LineFor(i + 1, items[i]))
      + [TotalLine(Total(items))]
  }

  /** The sum of the subtotals the item lines show. */
  function ShownSum(lines: seq<SummaryLine>): int
  {
    if |lines| == 0 then 0
    else (if lines[0].ItemLine? then lines[0].subtotal else 0) + ShownSum(lines[1..])
  }

  /** Item lines showing the items' subtotals add up to the items' total. */
  lemma {:induction false} ShownSumIsTotal(lines: seq<SummaryLine>, items: seq<Item>)
    requires |lines| == |items|
    requires forall i :: 0 <= i < |items| ==> lines[i].ItemLine? && lines[i].subtotal == Subtotal(items[i])
    ensures ShownSum(lines) == Total(items)
    decreases |items|
  {
    if |items| > 0 {
      ShownSumIsTotal(lines[1..], items[1..]);
    }
  }

  /** The total line of a summary is the sum of the subtotals shown above it. */
  lemma CartLinesAddUp(items: seq<Item>)
    ensures var lines := CartLines(items);
      lines[|items|] == TotalLine(ShownSum(lines[..|items|]))
  {
    ShownSumIsTotal(CartLines(items)[..|items|], items);
  }

  /** The loop of the cart view, the /cart command and the checkout: walk the
      items, number them from 1, accumulate the total. */
  method Summarize(items: seq<Item>) returns (lines: seq<SummaryLine>, total: int)
    ensures |lines| == |items| + 1
    ensures forall i :: 0 <= i < |items| ==> lines[i] == LineFor(i + 1, items[i])
    ensures lines[|items|] == TotalLine(total)
    ensures total == Total(items)
    ensures lines == CartLines(items)
  {
    lines := [];
    total := 0;
    var i := 0;
    while i < |items|
      invariant 0 <= i <= |items|
      invariant |lines| == i
      invariant forall k :: 0 <= k < i ==> lines[k] == LineFor(k + 1, items[k])
      invariant total == Total(items[..i])
    {
      var subtotal := UnitPrice(items[i]) * Quantity(items[i]);
      TotalAppend(items[..i], items[i]);
      assert items[..i + 1] == items[..i] + [items[i]];
      total := total + subtotal;
      lines := lines + [LineFor(i + 1, items[i])];
      i := i + 1;
    }
    assert items[..i] == items;
    lines := lines + [TotalLine(total)];
  }

  /** The administrator's message: a header naming the sender, then the cart summary. */
  function OrderLines(user: User, items: seq<Item>): (lines: seq<SummaryLine>)
    ensures |lines| == |items| + 2
    ensures lines[0] == Header(Handle(user), user.id)
    ensures forall i :: 0 <= i < |items| ==> lines[i + 1] == LineFor(i + 1, items[i])
    ensures lines[|items| + 1] == TotalLine(Total(items))
  {
    [Header(Handle(user), user.id)] + CartLines(items)
  }

  datatype CheckoutOutcome =
    | CartEmpty                                  // nothing sent
    | SendFailed(order: seq<SummaryLine>)        // the send raised; the cart is kept
    | Sent(order: seq<SummaryLine>)              // delivered; the cart is cleared

  datatype CheckoutResult = CheckoutResult(doc: Doc, outcome: CheckoutOutcome)

  /** `handle_checkout`. `delivered` is the outcome of the one send to the
      administrator, which is only attempted for a non-empty cart. */
  function Checkout(doc: Doc, user: User, delivered: bool): (r: CheckoutResult)
    ensures r.outcome.CartEmpty? <==> |ItemsOf(doc, user.id)| == 0
    ensures r.outcome.CartEmpty? ==> r.doc == GetCart(doc, user.id).doc
    ensures r.outcome.CartEmpty? && Key(user.id) in doc ==> r.doc == doc
    ensures r.outcome.SendFailed? <==> |ItemsOf(doc, user.id)| > 0 && !delivered
    ensures r.outcome.SendFailed? ==> r.doc == doc
    ensures r.outcome.Sent? <==> |ItemsOf(doc, user.id)| > 0 && delivered
    ensures r.outcome.Sent? ==> Key(user.id) !in r.doc && SameExcept(doc, r.doc, Key(user.id))
    ensures !r.outcome.CartEmpty? ==> r.outcome.order == OrderLines(user, ItemsOf(doc, user.id))
  {
    var fetched := GetCart(doc, user.id);
    var items := fetched.cart.items;
    if |items| == 0 then CheckoutResult(fetched.doc, CartEmpty)
    else
      var order := OrderLines(user, items);
      if !delivered then CheckoutResult(fetched.doc, SendFailed(order))
      else CheckoutResult(ClearCart(fetched.doc, user.id), Sent(order))
  }
}

=== FILE: router.dfy ===
/**
 The callback router: one pure step from (document, user, callback data) to
 the next document and the screen shown. The administrator send of a
 checkout is the boolean `delivered`.
 */
module Router {
  import opened Wrappers
  import opened Text
  import opened Catalog
  import opened CartStore
  import opened Commands
  import opened Keyboards
  import opened Orders

  datatype CartView =
    | EmptyCartView                       // "your cart is empty"
    | Listing(lines: seq<SummaryLine>)    // one line per item, then the total

  datatype Screen =
    | MainMenu(keyboard: Keyboard)
    | CartScreen(view: CartView, keyboard: Keyboard)
    | ModelOptions(car: string, model: string, keyboard: Keyboard)
    | TireSizes(origin: string, keyboard: Keyboard)
    | PartConfirm(partKey: string, price: int, keyboard: Keyboard)
    | ItemAdded(item: Item)
    | InvalidItem                         // add_item with too few fields
    | CartCleared
    | CheckoutReply(outcome: CheckoutOutcome)
    | Expired                             // the fallback for unknown data
    | Failed(fault: Fault)                // an exception escaped the handler

  datatype Reply = Reply(doc: Doc, screen: Screen)

  /** `show_cart`: fetches the cart (creating it when missing), lists it, and
      builds the cart keyboard from a second fetch. */
  function ShowCart(doc: Doc, userId: int): (r: Reply)
    ensures r.doc == GetCart(doc, userId).doc
    ensures r.screen.CartScreen?
    ensures r.screen.view.EmptyCartView? <==> |ItemsOf(doc, userId)| == 0
    ensures r.screen.view.Listing? ==> r.screen.view.lines == CartLines(ItemsOf(doc, userId))
    ensures r.screen.keyboard == CartKeyboard(GetCart(doc, userId).cart)
  {
    var first := GetCart(doc, userId);
    var items := first.cart.items;
    var second := GetCart(first.doc, userId);
    var view := if |items| == 0 then EmptyCartView else Listing(CartLines(items));
    Reply(second.doc, CartScreen(view, CartKeyboard(second.cart)))
  }

  /** The /cart command: the same fetch and listing as the cart view, sent
      as plain text without a keyboard. */
  function CartCommand(doc: Doc, userId: int): (r: (Doc, CartView))
    ensures r.0 == GetCart(doc, userId).doc
    ensures r.1.EmptyCartView? <==> |ItemsOf(doc, userId)| == 0
    ensures r.1.Listing? ==> r.1.lines == CartLines(ItemsOf(doc, userId))
  {
    var fetched := GetCart(doc, userId);
    var items := fetched.cart.items;
    (fetched.doc, if |items| == 0 then EmptyCartView else Listing(CartLines(items)))
  }

  /** The item an add-item command appends: one of it, at the given price. */
  function NewItem(car: string, model: string, name: string, meta: string, price: int): (it: Item)
    ensures UnitPrice(it) == price && Quantity(it) == 1 && Subtotal(it) == price
  {
    Item(car, model, name, meta, Some(price), Some(1))
  }

  /** The router's action for a parsed command. */
  function Dispatch(cat: Catalog, doc: Doc, user: User, cmd: Command, delivered: bool): (r: Reply)
    ensures SameExcept(doc, r.doc, Key(user.id))
    ensures !Mutates(cmd) ==> r.doc == doc
    ensures r.screen.Expired? <==> cmd.Unrecognized?
    ensures r.screen.Failed? <==> cmd.Malformed? || cmd.SelectCar? || cmd.BackModels?
  {
    match cmd
    case ViewCart => ShowCart(doc, user.id)
    case BackMain => Reply(doc, MainMenu(MainMenuKeyboard(cat)))
    case SelectCar(_) => Reply(doc, Failed(UnboundModelName))
    case BackModels(_) => Reply(doc, Failed(UnboundModelName))
    case SelectModel(car, model) =>
      Reply(doc, ModelOptions(car, model, ModelOptionsKeyboard(car, model)))
    case BackModelOptions(car, model) =>
      Reply(doc, ModelOptions(car, model, ModelOptionsKeyboard(car, model)))
    case SelectTireOrigin(car, model, origin) =>
      Reply(doc, TireSizes(origin, TireSizesKeyboard(cat, car, model, origin)))
    case SelectPart(car, model, partKey) =>
      var (name, price) := QuotePart(cat, partKey);
      Reply(doc, PartConfirm(partKey, price, PartConfirmKeyboard(car, model, name, price)))
    case AddItem(car, model, name, meta, price) =>
      var item := NewItem(car, model, name, meta, price);
      var fetched := GetCart(doc, user.id);
      Reply(UpdateCart(fetched.doc, user.id, Cart(fetched.cart.items + [item])), ItemAdded(item))
    case ShortAddItem => Reply(doc, InvalidItem)
    case ClearCartCmd => Reply(ClearCart(doc, user.id), CartCleared)
    case CheckoutCmd =>
      var result := Checkout(doc, user, delivered);
      Reply(result.doc, CheckoutReply(result.outcome))
    case Malformed(fault) => Reply(doc, Failed(fault))
    case Unrecognized => Reply(doc, Expired)
  }

  /** The commands that may change the document. */
  predicate Mutates(cmd: Command)
  {
    cmd.ViewCart? || cmd.AddItem? || cmd.ClearCartCmd? || cmd.CheckoutCmd?
  }

  /** `callback_router`. Only the pressing user's entry can change, only the
      cart commands change anything, and exactly the unrecognised data gets
      the fallback reply. */
  function Route(cat: Catalog, doc: Doc, user: User, data: string, delivered: bool): (r: Reply)
    ensures SameExcept(doc, r.doc, Key(user.id))
    ensures !Mutates(Parse(data)) ==> r.doc == doc
    ensures r.screen.Expired? <==> Parse(data).Unrecognized?
    ensures r.screen.Failed? <==>
      Parse(data).Malformed? || Parse(data).SelectCar? || Parse(data).BackModels?
  {
    Dispatch(cat, doc, user, Parse(data), delivered)
  }

  /** One button press: its callback data, and whether the administrator send
      would succeed if the press is a checkout. */
  datatype Press = Press(data: string, delivered: bool)

  /** The document after a sequence of button presses by one user. */
  function Run(cat: Catalog, doc: Doc, user: User, presses: seq<Press>): Doc
    decreases |presses|
  {
    if |presses| == 0 then doc
    else Run(cat, Route(cat, doc, user, presses[0].data, presses[0].delivered).doc, user, presses[1..])
  }
}

=== FILE: scenarios.dfy ===
/**
 Properties of whole router steps and of sequences of them: what a button
 press does to the document, stated in terms of the raw callback data or of
 the keyboards the bot shows.
 */
module Scenarios {
  import opened Wrappers
  import opened Text
  import opened Catalog
  import opened CartStore
  import opened Commands
  import opened Keyboards
  import opened Orders
  import opened Router

  /** `add_item|…` data passes by every earlier case of the router. */
  lemma AddItemBranch(data: string)
    requires StartsWith(data, "add_item|")
    ensures var parts := Split(data, Delim);
      && (|parts| < 6 ==> Parse(data) == ShortAddItem)
      && (|parts| > 6 ==> Parse(data) == Malformed(WrongFieldCount))
      && (|parts| == 6 && ParseInt(parts[5]).None? ==> Parse(data) == Malformed(BadPrice))
      && (|parts| == 6 && ParseInt(parts[5]).Some? ==>
            Parse(data) == AddItem(parts[1], parts[2], parts[3], parts[4], ParseInt(parts[5]).value))
  {
    PrefixChar(data, "add_item|", 0);
    NotPrefix(data, "car|", 0);
    NotPrefix(data, "model|", 0);
    NotPrefix(data, "tires_type|", 0);
    NotPrefix(data, "part|", 0);
  }

  /** An add-item press with fewer than six fields is rejected and with more
      than six or a non-integer price it raises; in all three cases the
      document is unchanged. With six fields and an integer price exactly one
      item, of quantity 1, is appended after the existing ones. */
  lemma AddItemOutcomes(cat: Catalog, doc: Doc, user: User, data: string, delivered: bool)
    requires StartsWith(data, "add_item|")
    ensures var r := Route(cat, doc, user, data, delivered);
      var parts := Split(data, Delim);
      && (|parts| < 6 ==> r.doc == doc && r.screen == InvalidItem)
      && (|parts| > 6 ==> r.doc == doc && r.screen == Failed(WrongFieldCount))
      && (|parts| == 6 && ParseInt(parts[5]).None? ==> r.doc == doc && r.screen == Failed(BadPrice))
      && (|parts| == 6 && ParseInt(parts[5]).Some? ==>
            var item := NewItem(parts[1], parts[2], parts[3], parts[4], ParseInt(parts[5]).value);
            && Key(user.id) in r.doc
            && r.doc[Key(user.id)].items == ItemsOf(doc, user.id) + [item]
            && r.screen == ItemAdded(item))
  {
    var parts := Split(data, Delim);
    if |parts| == 6 && ParseInt(parts[5]).Some? {
      AddItemAccepted(cat, doc, user, data, delivered);
    } else if |parts| < 6 {
      AddItemShort(cat, doc, user, data, delivered);
    } else if |parts| > 6 {
      AddItemLong(cat, doc, user, data, delivered);
    } else {
      AddItemBadPrice(cat, doc, user, data, delivered);
    }
  }

  /** The accepted case of `AddItemOutcomes`. */
  lemma AddItemAccepted(cat: Catalog, doc: Doc, user: User, data: string, delivered: bool)
    requires StartsWith(data, "add_item|")
    requires |Split(data, Delim)| == 6 && ParseInt(Split(data, Delim)[5]).Some?
    ensures var r := Route(cat, doc, user, data, delivered);
      var parts := Split(data, Delim);
      var item := NewItem(parts[1], parts[2], parts[3], parts[4], ParseInt(parts[5]).value);
      && Key(user.id) in r.doc
      && r.doc[Key(user.id)].items == ItemsOf(doc, user.id) + [item]
      && r.screen == ItemAdded(item)
  {
    AddItemBranch(data);
    RouteAdd(cat, doc, user, data, delivered);
  }

  /** Proof-cost helper: a router step is the action of whatever the data
      parses to. It follows from the definition of `Route`; stating it apart
      keeps the parser's unfolding out of the lemmas that use it. */
  lemma RouteParsed(cat: Catalog, doc: Doc, user: User, data: string, delivered: bool)
    ensures Route(cat, doc, user, data, delivered) == Dispatch(cat, doc, user, Parse(data), delivered)
  {
  }

  /** Proof-cost helper: the same for a known parse result, so that callers
      see only the command and not the parser. */
  lemma RouteAs(cat: Catalog, doc: Doc, user: User, data: string, c: Command, delivered: bool)
    ensures Parse(data) == c ==> Route(cat, doc, user, data, delivered) == Dispatch(cat, doc, user, c, delivered)
  {
  }

  /** An add-item press with fewer than six fields is rejected. */
  lemma AddItemShort(cat: Catalog, doc: Doc, user: User, data: string, delivered: bool)
    requires StartsWith(data, "add_item|") && |Split(data, Delim)| < 6
    ensures Route(cat, doc, user, data, delivered) == Reply(doc, InvalidItem)
  {
    assert Parse(data) == ShortAddItem by {
      AddItemBranch(data);
    }
    RouteAs(cat, doc, user, data, ShortAddItem, delivered);
    assert Dispatch(cat, doc, user, ShortAddItem, delivered) == Reply(doc, InvalidItem);
  }

  /** An add-item press with more than six fields raises. */
  lemma AddItemLong(cat: Catalog, doc: Doc, user: User, data: string, delivered: bool)
    requires StartsWith(data, "add_item|") && |Split(data, Delim)| > 6
    ensures Route(cat, doc, user, data, delivered) == Reply(doc, Failed(WrongFieldCount))
  {
    LongAddItemParse(data);
    RouteMalformed(cat, doc, user, data, WrongFieldCount, delivered);
  }

  /** Proof-cost helper: more than six fields parse to the unpacking error. */
  lemma LongAddItemParse(data: string)
    requires StartsWith(data, "add_item|") && |Split(data, Delim)| > 6
    ensures Parse(data) == Malformed(WrongFieldCount)
  {
    AddItemBranch(data);
  }

  /** Proof-cost helper: data that parses to a fault gets the failure reply. */
  lemma RouteMalformed(cat: Catalog, doc: Doc, user: User, data: string, fault: Fault, delivered: bool)
    ensures Parse(data) == Malformed(fault) ==> Route(cat, doc, user, data, delivered) == Reply(doc, Failed(fault))
  {
    RouteAs(cat, doc, user, data, Malformed(fault), delivered);
  }

  /** An add-item press whose price is not an integer raises. */
  lemma AddItemBadPrice(cat: Catalog, doc: Doc, user: User, data: string, delivered: bool)
    requires StartsWith(data, "add_item|")
    requires |Split(data, Delim)| == 6 && ParseInt(Split(data, Delim)[5]).None?
    ensures Route(cat, doc, user, data, delivered) == Reply(doc, Failed(BadPrice))
  {
    assert Parse(data) == Malformed(BadPrice) by {
      AddItemBranch(data);
    }
    RouteAs(cat, doc, user, data, Malformed(BadPrice), delivered);
    assert Dispatch(cat, doc, user, Malformed(BadPrice), delivered) == Reply(doc, Failed(BadPrice));
  }

  /** Proof-cost helper: the add-item action appends one item of quantity 1
      to the user's cart. It follows from the definition of `Dispatch`. */
  lemma DispatchAdd(cat: Catalog, doc: Doc, user: User, car: string, model: string,
                    name: string, meta: string, price: int, delivered: bool)
    ensures var item := NewItem(car, model, name, meta, price);
      var r := Dispatch(cat, doc, user, AddItem(car, model, name, meta, price), delivered);
      && Key(user.id) in r.doc
      && r.doc[Key(user.id)].items == ItemsOf(doc, user.id) + [item]
      && r.screen == ItemAdded(item)
  {
  }

  /** The item a parsed add-item command appends. */
  function AddedItem(c: Command): Item
    requires c.AddItem?
  {
    NewItem(c.car, c.model, c.name, c.meta, c.price)
  }

  /** The router's step for data that parses as an add-item command. */
  lemma RouteAdd(cat: Catalog, doc: Doc, user: User, data: string, delivered: bool)
    ensures var r := Route(cat, doc, user, data, delivered);
      Parse(data).AddItem? ==>
      && Key(user.id) in r.doc
      && r.doc[Key(user.id)].items == ItemsOf(doc, user.id) + [AddedItem(Parse(data))]
      && r.screen == ItemAdded(AddedItem(Parse(data)))
  {
    var c := Parse(data);
    if c.AddItem? {
      RouteParsed(cat, doc, user, data, delivered);
      DispatchAdd(cat, doc, user, c.car, c.model, c.name, c.meta, c.price, delivered);
    }
  }

  /** Pressing an add-item button raises the cart total by the button's price. */
  lemma AddItemTotal(cat: Catalog, doc: Doc, user: User, car: string, model: string,
                     name: string, meta: string, price: int, delivered: bool)
    requires Delim !in car && Delim !in model && Delim !in name && Delim !in meta
    ensures var data := Encode(AddItem(car, model, name, meta, price));
      Total(ItemsOf(Route(cat, doc, user, data, delivered).doc, user.id)) == Total(ItemsOf(doc, user.id)) + price
  {
    var data := Encode(AddItem(car, model, name, meta, price));
    var item := NewItem(car, model, name, meta, price);
    var after := Route(cat, doc, user, data, delivered).doc;
    assert ItemsOf(after, user.id) == ItemsOf(doc, user.id) + [item] by {
      ParseEncodeAddItem(car, model, name, meta, price);
      RouteAdd(cat, doc, user, data, delivered);
    }
    assert Total(ItemsOf(after, user.id)) == Total(ItemsOf(doc, user.id)) + price by {
      TotalAppend(ItemsOf(doc, user.id), item);
    }
  }

  /** `car|…` and `back_models|…` always raise (the model list builder reads
      its loop variable before binding it) and change nothing. */
  lemma ModelListFails(cat: Catalog, doc: Doc, user: User, data: string, delivered: bool)
    requires StartsWith(data, "car|") || StartsWith(data, "back_models|")
    ensures Route(cat, doc, user, data, delivered) == Reply(doc, Failed(UnboundModelName))
  {
    ModelListParse(data);
    assert Route(cat, doc, user, data, delivered) == Dispatch(cat, doc, user, Parse(data), delivered);
  }

  lemma ModelListParse(data: string)
    requires StartsWith(data, "car|") || StartsWith(data, "back_models|")
    ensures Parse(data).SelectCar? || Parse(data).BackModels?
  {
    if StartsWith(data, "car|") {
      PrefixChar(data, "car|", 3);
    } else {
      PrefixChar(data, "back_models|", 0);
      PrefixChar(data, "back_models|", 11);
      PassesEarlyPrefixes(data);
    }
    CutAtFirst(data, Delim);
  }

  /** A press by one user never changes another user's entry. */
  lemma OtherUsersUnaffected(cat: Catalog, doc: Doc, user: User, data: string, delivered: bool, other: int)
    requires other != user.id
    ensures var r := Route(cat, doc, user, data, delivered);
      && (Key(other) in r.doc <==> Key(other) in doc)
      && (Key(other) in doc ==> r.doc[Key(other)] == doc[Key(other)])
  {
    OtherUserUntouched(doc, Route(cat, doc, user, data, delivered).doc, user.id, other);
  }

  /** Clearing and then viewing the cart shows the empty cart with only the
      way back to the main menu, whatever the cart held. */
  lemma ClearThenView(cat: Catalog, doc: Doc, user: User, delivered: bool)
    ensures var cleared := Route(cat, doc, user, Encode(ClearCartCmd), delivered);
      var viewed := Route(cat, cleared.doc, user, Encode(ViewCart), delivered);
      && cleared.screen == CartCleared
      && Key(user.id) !in cleared.doc
      && viewed.screen == CartScreen(EmptyCartView, [[Encode(BackMain)]])
      && viewed.doc == doc[Key(user.id) := EmptyCart]
  {
    ClearStep(cat, doc, user, delivered);
    ViewWithoutCart(cat, ClearCart(doc, user.id), user, delivered);
    assert ClearCart(doc, user.id)[Key(user.id) := EmptyCart] == doc[Key(user.id) := EmptyCart];
  }

  lemma ClearStep(cat: Catalog, doc: Doc, user: User, delivered: bool)
    ensures Route(cat, doc, user, Encode(ClearCartCmd), delivered) == Reply(ClearCart(doc, user.id), CartCleared)
  {
    RouteFixed(cat, doc, user, ClearCartCmd, delivered);
  }

  /** Viewing a missing cart stores and shows the empty cart. */
  lemma ViewWithoutCart(cat: Catalog, doc: Doc, user: User, delivered: bool)
    requires Key(user.id) !in doc
    ensures Route(cat, doc, user, Encode(ViewCart), delivered)
         == Reply(doc[Key(user.id) := EmptyCart], CartScreen(EmptyCartView, [[Encode(BackMain)]]))
  {
    RouteFixed(cat, doc, user, ViewCart, delivered);
    assert Route(cat, doc, user, Encode(ViewCart), delivered) == ShowCart(doc, user.id);
    assert CartKeyboard(EmptyCart) == [[Encode(BackMain)]];
  }

  /** The router's step for one of the four parameterless commands. */
  lemma RouteFixed(cat: Catalog, doc: Doc, user: User, c: Command, delivered: bool)
    requires c.ViewCart? || c.BackMain? || c.ClearCartCmd? || c.CheckoutCmd?
    ensures Route(cat, doc, user, Encode(c), delivered) == Dispatch(cat, doc, user, c, delivered)
  {
    ParseEncodeFixed(c);
  }

  /** The three ways a checkout press ends. */
  lemma CheckoutOutcomes(cat: Catalog, doc: Doc, user: User, delivered: bool)
    ensures var r := Route(cat, doc, user, Encode(CheckoutCmd), delivered);
      var items := ItemsOf(doc, user.id);
      && (|items| == 0 ==> r.screen == CheckoutReply(CartEmpty) && ItemsOf(r.doc, user.id) == []
                           && (Key(user.id) in doc ==> r.doc == doc))
      && (|items| > 0 && !delivered ==>
            r.screen == CheckoutReply(SendFailed(OrderLines(user, items))) && r.doc == doc)
      && (|items| > 0 && delivered ==>
            r.screen == CheckoutReply(Sent(OrderLines(user, items)))
            && Key(user.id) !in r.doc
            && GetCart(r.doc, user.id).cart == EmptyCart)
  {
    RouteFixed(cat, doc, user, CheckoutCmd, delivered);
    var res := Checkout(doc, user, delivered);
    assert Route(cat, doc, user, Encode(CheckoutCmd), delivered) == Reply(res.doc, CheckoutReply(res.outcome));
    if |ItemsOf(doc, user.id)| == 0 {
      assert res.outcome == CartEmpty;
    } else if delivered {
      assert res.outcome == Sent(OrderLines(user, ItemsOf(doc, user.id)));
    } else {
      assert res.outcome == SendFailed(OrderLines(user, ItemsOf(doc, user.id)));
    }
  }

  /** The items a sequence of add-item presses appends, in press order. */
  function AddedItems(presses: seq<Press>): (items: seq<Item>)
    requires forall i :: 0 <= i < |presses| ==> Parse(presses[i].data).AddItem?
    ensures |items| == |presses|
    ensures forall i :: 0 <= i < |presses| ==> items[i] == AddedItem(Parse(presses[i].data))
  {
    if |presses| == 0 then []
    else
      assert forall i :: 0 <= i < |presses[1..]| ==> presses[1..][i] == presses[i + 1];
      [AddedItem(Parse(presses[0].data))] + AddedItems(presses[1..])
  }

  /** A run of add-item presses appends one item per press, in order, after
      the items already there. */
  lemma {:induction false} AddsAccumulate(cat: Catalog, doc: Doc, user: User, presses: seq<Press>)
    requires forall i :: 0 <= i < |presses| ==> Parse(presses[i].data).AddItem?
    ensures ItemsOf(Run(cat, doc, user, presses), user.id)
         == ItemsOf(doc, user.id) + AddedItems(presses)
    decreases |presses|
  {
    if |presses| > 0 {
      var next := Route(cat, doc, user, presses[0].data, presses[0].delivered).doc;
      var item := AddedItem(Parse(presses[0].data));
      assert ItemsOf(next, user.id) == ItemsOf(doc, user.id) + [item] by {
        RouteAdd(cat, doc, user, presses[0].data, presses[0].delivered);
      }
      assert forall i :: 0 <= i < |presses[1..]| ==> presses[1..][i] == presses[i + 1];
      var rest := AddedItems(presses[1..]);
      assert AddedItems(presses) == [item] + rest;
      assert ItemsOf(Run(cat, next, user, presses[1..]), user.id) == ItemsOf(next, user.id) + rest by {
        AddsAccumulate(cat, next, user, presses[1..]);
      }
      assert Run(cat, doc, user, presses) == Run(cat, next, user, presses[1..]) by {
        RunStep(cat, doc, user, presses);
      }
      AppendAssoc(ItemsOf(doc, user.id), [item], rest);
    }
  }

  /** Proof-cost helper: sequence concatenation regrouped, stated apart so the
      solver meets it without the router's definitions in scope. */
  lemma AppendAssoc<T>(a: seq<T>, b: seq<T>, c: seq<T>)
    ensures a + b + c == a + (b + c)
  {
  }

  /** Proof-cost helper: one unfolding of `Run`, stated apart for the same reason. */
  lemma RunStep(cat: Catalog, doc: Doc, user: User, presses: seq<Press>)
    requires |presses| > 0
    ensures Run(cat, doc, user, presses)
         == Run(cat, Route(cat, doc, user, presses[0].data, presses[0].delivered).doc, user, presses[1..])
  {
  }

  /** The number of presses the router reads as a well-formed add-item command. */
  function AcceptedAdds(presses: seq<Press>): (n: nat)
    ensures n <= |presses|
  {
    if |presses| == 0 then 0
    else (if Parse(presses[0].data).AddItem? then 1 else 0) + AcceptedAdds(presses[1..])
  }

  /** A press that cannot empty the cart: neither a clear nor a checkout whose
      send succeeds. */
  predicate KeepsCart(p: Press)
  {
    !Parse(p.data).ClearCartCmd? && !(Parse(p.data).CheckoutCmd? && p.delivered)
  }

  /** Every action other than a clear and a successful checkout adds one item
      for an accepted add-item and none otherwise: rejected add-items,
      navigation, views and failed or empty checkouts keep the count. */
  lemma DispatchCount(cat: Catalog, doc: Doc, user: User, cmd: Command, delivered: bool)
    requires !cmd.ClearCartCmd? && !(cmd.CheckoutCmd? && delivered)
    ensures |ItemsOf(Dispatch(cat, doc, user, cmd, delivered).doc, user.id)|
         == |ItemsOf(doc, user.id)| + (if cmd.AddItem? then 1 else 0)
  {
    if cmd.AddItem? {
      DispatchAdd(cat, doc, user, cmd.car, cmd.model, cmd.name, cmd.meta, cmd.price, delivered);
    } else if cmd.ViewCart? {
      assert Dispatch(cat, doc, user, cmd, delivered).doc == GetCart(doc, user.id).doc;
      GetCartIdempotent(doc, user.id);
    } else if cmd.CheckoutCmd? {
      GetCartIdempotent(doc, user.id);
    }
  }

  /** One press that cannot empty the cart changes the item count by one
      exactly when it is an accepted add-item. */
  lemma PressCount(cat: Catalog, doc: Doc, user: User, p: Press)
    ensures KeepsCart(p) ==>
      |ItemsOf(Route(cat, doc, user, p.data, p.delivered).doc, user.id)|
        == |ItemsOf(doc, user.id)| + (if Parse(p.data).AddItem? then 1 else 0)
  {
    if KeepsCart(p) {
      RouteParsed(cat, doc, user, p.data, p.delivered);
      DispatchCount(cat, doc, user, Parse(p.data), p.delivered);
    }
  }

  /** Over presses none of which can empty the cart, the item count grows by
      the number of accepted add-item presses. */
  lemma {:induction false} CountAccumulates(cat: Catalog, doc: Doc, user: User, presses: seq<Press>)
    requires forall i :: 0 <= i < |presses| ==> KeepsCart(presses[i])
    ensures |ItemsOf(Run(cat, doc, user, presses), user.id)| == |ItemsOf(doc, user.id)| + AcceptedAdds(presses)
    decreases |presses|
  {
    if |presses| > 0 {
      var next := Route(cat, doc, user, presses[0].data, presses[0].delivered).doc;
      assert |ItemsOf(next, user.id)| == |ItemsOf(doc, user.id)| + (if Parse(presses[0].data).AddItem? then 1 else 0) by {
        PressCount(cat, doc, user, presses[0]);
      }
      assert forall i :: 0 <= i < |presses[1..]| ==> presses[1..][i] == presses[i + 1];
      assert |ItemsOf(Run(cat, next, user, presses[1..]), user.id)| == |ItemsOf(next, user.id)| + AcceptedAdds(presses[1..]) by {
        CountAccumulates(cat, next, user, presses[1..]);
      }
      assert Run(cat, doc, user, presses) == Run(cat, next, user, presses[1..]) by {
        RunStep(cat, doc, user, presses);
      }
    }
  }

  /** After a clear press, the cart holds exactly as many items as accepted
      add-item presses since, whatever else was pressed in between. */
  lemma CountSinceClear(cat: Catalog, doc: Doc, user: User, clearDelivered: bool, presses: seq<Press>)
    requires forall i :: 0 <= i < |presses| ==> KeepsCart(presses[i])
    ensures |ItemsOf(Run(cat, doc, user, [Press(Encode(ClearCartCmd), clearDelivered)] + presses), user.id)|
         == AcceptedAdds(presses)
  {
    var all := [Press(Encode(ClearCartCmd), clearDelivered)] + presses;
    var cleared := ClearCart(doc, user.id);
    assert Route(cat, doc, user, Encode(ClearCartCmd), clearDelivered).doc == cleared by {
      ClearStep(cat, doc, user, clearDelivered);
    }
    assert all[0].data == Encode(ClearCartCmd) && all[1..] == presses;
    assert Run(cat, doc, user, all) == Run(cat, cleared, user, presses) by {
      RunStep(cat, doc, user, all);
    }
    assert ItemsOf(cleared, user.id) == [] by {
      GetAfterClear(doc, user.id);
    }
    CountAccumulates(cat, cleared, user, presses);
  }

  /** After a checkout press whose send succeeds, the cart holds exactly as many
      items as accepted add-item presses since, whatever else was pressed in
      between. */
  lemma CountSinceCheckout(cat: Catalog, doc: Doc, user: User, presses: seq<Press>)
    requires |ItemsOf(doc, user.id)| > 0
    requires forall i :: 0 <= i < |presses| ==> KeepsCart(presses[i])
    ensures |ItemsOf(Run(cat, doc, user, [Press(Encode(CheckoutCmd), true)] + presses), user.id)|
         == AcceptedAdds(presses)
  {
    var all := [Press(Encode(CheckoutCmd), true)] + presses;
    var sent := Route(cat, doc, user, Encode(CheckoutCmd), true).doc;
    assert ItemsOf(sent, user.id) == [] by {
      CheckoutOutcomes(cat, doc, user, true);
    }
    assert all[0].data == Encode(CheckoutCmd) && all[0].delivered && all[1..] == presses;
    assert Run(cat, doc, user, all) == Run(cat, sent, user, presses) by {
      RunStep(cat, doc, user, all);
    }
    CountAccumulates(cat, sent, user, presses);
  }

  /** Every tire-size button, pressed, appends that tire at its table price. */
  lemma TireButtonAdds(cat: Catalog, doc: Doc, user: User, car: string, model: string,
                       origin: string, i: nat, delivered: bool)
    requires WellFormed(cat)
    requires Delim !in car && Delim !in model
    requires i < |Sizes(cat, origin)|
    ensures var size := Sizes(cat, origin)[i];
      var item := NewItem(car, model, TireName(origin), size.0, size.1);
      var r := Route(cat, doc, user, TireSizesKeyboard(cat, car, model, origin)[i][0], delivered);
      && r.screen == ItemAdded(item)
      && Key(user.id) in r.doc
      && r.doc[Key(user.id)].items == ItemsOf(doc, user.id) + [item]
  {
    var j :| 0 <= j < |cat.tires| && cat.tires[j] == (origin, Lookup(cat.tires, origin).value);
    var size := Sizes(cat, origin)[i];
    assert Delim !in size.0;
    assert Delim !in TireName(origin) by {
      assert forall k :: 0 <= k < |TireName(origin)| - |origin| ==> TireName(origin)[k] != Delim;
      assert forall k :: 0 <= k < |origin| ==> TireName(origin)[k + |TireName(origin)| - |origin|] == origin[k];
    }
    ParseEncodeAddItem(car, model, TireName(origin), size.0, size.1);
    RouteAdd(cat, doc, user, TireSizesKeyboard(cat, car, model, origin)[i][0], delivered);
  }

  /** The buttons of the options keyboard read back as the tire origins, the
      four parts and the three navigation commands. */
  lemma OptionButtonsRoundTrip(car: string, model: string)
    requires Delim !in car && Delim !in model
    ensures var kb := ModelOptionsKeyboard(car, model);
      && (forall i :: 0 <= i < 2 ==> Parse(kb[i][0]) == SelectTireOrigin(car, model, Origins[i]))
      && (forall j :: 0 <= j < 4 ==> Parse(kb[2 + j][0]) == SelectPart(car, model, PartKeys[j]))
      && Parse(kb[6][0]) == BackModels(car)
      && Parse(kb[7][0]) == BackMain
      && Parse(kb[8][0]) == ViewCart
  {
    ParseEncodeTireOrigin(car, model, Foreign);
    ParseEncodeTireOrigin(car, model, Domestic);
    ParseEncodePart(car, model, LightBack);
    ParseEncodePart(car, model, SideMirror);
    ParseEncodePart(car, model, Windshield);
    ParseEncodePart(car, model, RearWindow);
    ParseEncodeBackModels(car);
    ParseEncodeFixed(BackMain);
    ParseEncodeFixed(ViewCart);
  }

  /** Pressing a part button shows the confirm screen at the quoted price
      and changes nothing. */
  lemma PartButtonShows(cat: Catalog, doc: Doc, user: User, car: string, model: string,
                        partKey: string, delivered: bool)
    requires Delim !in car && Delim !in model
    ensures var quote := QuotePart(cat, partKey);
      Route(cat, doc, user, Encode(SelectPart(car, model, partKey)), delivered)
        == Reply(doc, PartConfirm(partKey, quote.1, PartConfirmKeyboard(car, model, quote.0, quote.1)))
  {
    ParseEncodePart(car, model, partKey);
    assert Route(cat, doc, user, Encode(SelectPart(car, model, partKey)), delivered)
        == Dispatch(cat, doc, user, SelectPart(car, model, partKey), delivered);
  }

  /** Pressing the confirm button of a part appends the quoted part, meta "1",
      quantity 1. */
  lemma ConfirmButtonAdds(cat: Catalog, doc: Doc, user: User, car: string, model: string,
                          partKey: string, delivered: bool)
    requires Delim !in car && Delim !in model && Delim !in partKey
    ensures var quote := QuotePart(cat, partKey);
      var item := NewItem(car, model, quote.0, "1", quote.1);
      var added := Route(cat, doc, user, PartConfirmKeyboard(car, model, quote.0, quote.1)[0][0], delivered);
      && added.screen == ItemAdded(item)
      && Key(user.id) in added.doc
      && added.doc[Key(user.id)].items == ItemsOf(doc, user.id) + [item]
  {
    var quote := QuotePart(cat, partKey);
    assert Delim !in ForeignLightBack;
    ParseEncodeAddItem(car, model, quote.0, "1", quote.1);
    RouteAdd(cat, doc, user, PartConfirmKeyboard(car, model, quote.0, quote.1)[0][0], delivered);
  }

  /** With the shipped catalog every part button is priced from the table,
      never by a fallback. */
  lemma DefaultPartsPricedFromTable()
    ensures forall j :: 0 <= j < 4 ==>
      Lookup(Default.parts, QuotePart(Default, PartKeys[j]).0)
        == Some(QuotePart(Default, PartKeys[j]).1)
    ensures QuotePart(Default, LightBack) == (ForeignLightBack, 205)
    ensures QuotePart(Default, SideMirror) == (SideMirror, 120)
    ensures QuotePart(Default, Windshield) == (Windshield, 250)
    ensures QuotePart(Default, RearWindow) == (RearWindow, 200)
  {
    DefaultIsWellFormed();
    LookupEntry(Default.parts, 0);
    LookupEntry(Default.parts, 1);
    LookupEntry(Default.parts, 2);
    LookupEntry(Default.parts, 3);
    assert SideMirror != LightBack && Windshield != LightBack && RearWindow != LightBack;
    assert PartKeys == [LightBack, SideMirror, Windshield, RearWindow];
  }

  /** Viewing a non-empty cart lists it and changes nothing. */
  lemma ViewWithCart(cat: Catalog, doc: Doc, user: User, delivered: bool)
    requires Key(user.id) in doc && |doc[Key(user.id)].items| > 0
    ensures Route(cat, doc, user, Encode(ViewCart), delivered)
         == Reply(doc, CartScreen(Listing(CartLines(doc[Key(user.id)].items)), CartKeyboard(doc[Key(user.id)])))
  {
    RouteFixed(cat, doc, user, ViewCart, delivered);
    assert Route(cat, doc, user, Encode(ViewCart), delivered) == ShowCart(doc, user.id);
  }

  /** A tire button and then a part's confirm button, pressed into an empty
      cart, leave exactly those two items in the cart, in that order. */
  lemma TireThenPartItems(cat: Catalog, doc: Doc, user: User, car: string, model: string,
                          origin: string, partKey: string, delivered: bool)
    requires WellFormed(cat)
    requires Delim !in car && Delim !in model && Delim !in partKey
    requires Key(user.id) !in doc
    requires |Sizes(cat, origin)| > 0
    ensures
      var size := Sizes(cat, origin)[0];
      var quote := QuotePart(cat, partKey);
      var tire := Route(cat, doc, user, TireSizesKeyboard(cat, car, model, origin)[0][0], delivered);
      var part := Route(cat, tire.doc, user, PartConfirmKeyboard(car, model, quote.0, quote.1)[0][0], delivered);
      && Key(user.id) in part.doc
      && part.doc[Key(user.id)].items
         == [NewItem(car, model, TireName(origin), size.0, size.1), NewItem(car, model, quote.0, "1", quote.1)]
  {
    var size := Sizes(cat, origin)[0];
    var quote := QuotePart(cat, partKey);
    var tireItem := NewItem(car, model, TireName(origin), size.0, size.1);
    var tire := Route(cat, doc, user, TireSizesKeyboard(cat, car, model, origin)[0][0], delivered);
    assert Key(user.id) in tire.doc && tire.doc[Key(user.id)].items == [tireItem] by {
      TireButtonAdds(cat, doc, user, car, model, origin, 0, delivered);
    }
    var part := Route(cat, tire.doc, user, PartConfirmKeyboard(car, model, quote.0, quote.1)[0][0], delivered);
    assert Key(user.id) in part.doc && part.doc[Key(user.id)].items == [tireItem] + [NewItem(car, model, quote.0, "1", quote.1)] by {
      ConfirmButtonAdds(cat, tire.doc, user, car, model, partKey, delivered);
    }
  }

  /** A tire priced 185 and then a part quoted at 120, pressed into an empty
      cart: the cart view lists two lines with subtotals 185 and 120 and a
      total of 305. */
  lemma TireThenPartTotal(cat: Catalog, doc: Doc, user: User, car: string, model: string,
                          origin: string, partKey: string, delivered: bool)
    requires WellFormed(cat)
    requires Delim !in car && Delim !in model && Delim !in partKey
    requires Key(user.id) !in doc
    requires |Sizes(cat, origin)| > 0 && Sizes(cat, origin)[0].1 == 185
    requires QuotePart(cat, partKey).1 == 120
    ensures
      var tire := Route(cat, doc, user, TireSizesKeyboard(cat, car, model, origin)[0][0], delivered);
      var quote := QuotePart(cat, partKey);
      var part := Route(cat, tire.doc, user, PartConfirmKeyboard(car, model, quote.0, 120)[0][0], delivered);
      var view := Route(cat, part.doc, user, Encode(ViewCart), delivered).screen;
      && view.CartScreen? && view.view.Listing?
      && |view.view.lines| == 3
      && view.view.lines[0].subtotal == 185
      && view.view.lines[1].subtotal == 120
      && view.view.lines[2] == TotalLine(305)
  {
    var tire := Route(cat, doc, user, TireSizesKeyboard(cat, car, model, origin)[0][0], delivered);
    var quote := QuotePart(cat, partKey);
    var part := Route(cat, tire.doc, user, PartConfirmKeyboard(car, model, quote.0, 120)[0][0], delivered);
    var size := Sizes(cat, origin)[0];
    var items := [NewItem(car, model, TireName(origin), size.0, 185), NewItem(car, model, quote.0, "1", 120)];
    assert Key(user.id) in part.doc && part.doc[Key(user.id)].items == items by {
      TireThenPartItems(cat, doc, user, car, model, origin, partKey, delivered);
    }
    var view := Route(cat, part.doc, user, Encode(ViewCart), delivered).screen;
    assert view == CartScreen(Listing(CartLines(items)), CartKeyboard(part.doc[Key(user.id)])) by {
      ViewWithCart(cat, part.doc, user, delivered);
    }
    var lines := CartLines(items);
    assert |lines| == 3 && lines[0].subtotal == 185 && lines[1].subtotal == 120 && lines[2] == TotalLine(305) by {
      TwoItemListing(items[0], items[1]);
    }
  }

  /** The summary of a two-item cart. */
  lemma TwoItemListing(a: Item, b: Item)
    ensures var lines := CartLines([a, b]);
      && |lines| == 3
      && lines[0].ItemLine? && lines[0].subtotal == Subtotal(a)
      && lines[1].ItemLine? && lines[1].subtotal == Subtotal(b)
      && lines[2] == TotalLine(Subtotal(a) + Subtotal(b))
  {
    assert [a, b][1..] == [b];
    assert Total([b]) == Subtotal(b) + Total([]);
  }

  /** With the shipped catalog, a foreign 185 tire for a 405 and then a side
      mirror, whose button shows the confirm screen at
      120, give a cart total of 305. */
  lemma DefaultTireThenMirror(doc: Doc, user: User, delivered: bool)
    requires Key(user.id) !in doc
    ensures Sizes(Default, Foreign)[0] == ("185", 185)
    ensures QuotePart(Default, SideMirror) == (SideMirror, 120)
    ensures
      var tire := Route(Default, doc, user, TireSizesKeyboard(Default, "پژو", "405", Foreign)[0][0], delivered);
      var confirm := PartConfirmKeyboard("پژو", "405", SideMirror, 120);
      var part := Route(Default, tire.doc, user, confirm[0][0], delivered);
      var view := Route(Default, part.doc, user, Encode(ViewCart), delivered).screen;
      && view.CartScreen? && view.view.Listing?
      && |view.view.lines| == 3
      && view.view.lines[2] == TotalLine(305)
  {
    assert Sizes(Default, Foreign)[0] == ("185", 185) by {
      LookupEntry(Default.tires, 0);
    }
    assert QuotePart(Default, SideMirror) == (SideMirror, 120) by {
      DefaultPartsPricedFromTable();
    }
    assert WellFormed(Default) by {
      DefaultIsWellFormed();
    }
    TireThenPartTotal(Default, doc, user, "پژو", "405", Foreign, SideMirror, delivered);
  }
}

=== FILE: text.dfy ===
/**
 String primitives of the bot's command encoding: Python's `str.split` with an
 explicit separator (with and without `maxsplit`), the f-string joining of
 fields with `|`, `str(int)` and `int(str)`.
 */
module Text {
  import opened Wrappers

  /** The separator of every callback command. */
  const Delim: char := '|'

  /** Number of occurrences of `c` in `s`. */
  function Count(s: string, c: char): nat
  {
    if |s| == 0 then 0 else (if s[0] == c then 1 else 0) + Count(s[1..], c)
  }

  /** `s.startswith(prefix)`. */
  predicate StartsWith(s: string, prefix: string)
  {
    |prefix| <= |s| && s[..|prefix|] == prefix
  }

  /** Position of the first `c` in `s` (`s.index(c)`). */
  function IndexOf(s: string, c: char): (i: nat)
    requires c in s
    ensures i < |s| && s[i] == c && c !in s[..i]
  {
    if s[0] == c then 0
    else
      assert s == [s[0]] + s[1..];
      var j := IndexOf(s[1..], c);
      assert s[..j + 1] == [s[0]] + s[1..][..j];
      j + 1
  }

  lemma {:induction false} CountZero(s: string, c: char)
    requires c !in s
    ensures Count(s, c) == 0
  {
    if |s| > 0 {
      assert c !in s[1..] by { assert forall k :: 0 <= k < |s[1..]| ==> s[1..][k] == s[k + 1]; }
      CountZero(s[1..], c);
    }
  }

  lemma {:induction false} CountConcat(a: string, b: string, c: char)
    ensures Count(a + b, c) == Count(a, c) + Count(b, c)
  {
    if |a| > 0 {
      assert (a + b)[1..] == a[1..] + b;
      CountConcat(a[1..], b, c);
    } else {
      assert a + b == b;
    }
  }

  /** Joins fields with `sep` between consecutive ones: the f-string `f"{f0}|{f1}|…"`. */
  function Join(fields: seq<string>, sep: char): string
  {
    if |fields| == 0 then ""
    else if |fields| == 1 then fields[0]
    else fields[0] + [sep] + Join(fields[1..], sep)
  }

  /** True when no field contains the separator. */
  predicate AllFree(fields: seq<string>, sep: char)
  {
    forall i :: 0 <= i < |fields| ==> sep !in fields[i]
  }

  /** Cutting at the first separator: the count drops by one and the pieces
      reassemble `s`. */
  lemma CutAtFirst(s: string, sep: char)
    requires sep in s
    ensures var i := IndexOf(s, sep);
      && s == s[..i] + [sep] + s[i + 1..]
      && Count(s, sep) == Count(s[i + 1..], sep) + 1
  {
    var i := IndexOf(s, sep);
    assert s == s[..i] + [sep] + s[i + 1..];
    CountZero(s[..i], sep);
    CountConcat(s[..i], [sep] + s[i + 1..], sep);
    CountConcat([sep], s[i + 1..], sep);
  }

  lemma JoinCons(head: string, rest: seq<string>, sep: char)
    requires |rest| >= 1
    ensures Join([head] + rest, sep) == head + [sep] + Join(rest, sep)
  {
    assert ([head] + rest)[1..] == rest;
  }

  /** `s.split(sep)`: cuts `s` at every occurrence of `sep`; always at least one field. */
  function Split(s: string, sep: char): (fields: seq<string>)
    ensures |fields| == Count(s, sep) + 1
    ensures AllFree(fields, sep)
    ensures Join(fields, sep) == s
    decreases |s|
  {
    if sep !in s then
      CountZero(s, sep);
      [s]
    else
      var i := IndexOf(s, sep);
      var rest := Split(s[i + 1..], sep);
      CutAtFirst(s, sep);
      JoinCons(s[..i], rest, sep);
      [s[..i]] + rest
  }

  /** `s.split(sep, n)`: cuts at the first `n` occurrences of `sep` only, so the
      last field keeps any further separators. */
  function SplitN(s: string, sep: char, n: nat): (fields: seq<string>)
    ensures |fields| == if Count(s, sep) < n then Count(s, sep) + 1 else n + 1
    ensures forall i :: 0 <= i < |fields| - 1 ==> sep !in fields[i]
    ensures Count(s, sep) <= n ==> fields == Split(s, sep)
    ensures Join(fields, sep) == s
    decreases n
  {
    if sep !in s then
      CountZero(s, sep);
      [s]
    else if n == 0 then
      [s]
    else
      var i := IndexOf(s, sep);
      var rest := SplitN(s[i + 1..], sep, n - 1);
      CutAtFirst(s, sep);
      JoinCons(s[..i], rest, sep);
      [s[..i]] + rest
  }

  /** The first separator of `a + [sep] + b` is the one after `a` when `a` has none. */
  lemma IndexAfterFreePrefix(a: string, sep: char, b: string)
    requires sep !in a
    ensures sep in a + [sep] + b
    ensures IndexOf(a + [sep] + b, sep) == |a|
  {
    var s := a + [sep] + b;
    assert s[|a|] == sep;
    assert s[..|a|] == a;
  }

  /** One step of splitting joined fields: the first field comes off whole. */
  lemma SplitCons(head: string, rest: seq<string>, sep: char, n: nat)
    requires sep !in head && |rest| >= 1
    ensures Split(Join([head] + rest, sep), sep) == [head] + Split(Join(rest, sep), sep)
    ensures SplitN(Join([head] + rest, sep), sep, n + 1) == [head] + SplitN(Join(rest, sep), sep, n)
  {
    JoinCons(head, rest, sep);
    var tail := Join(rest, sep);
    var s := head + [sep] + tail;
    IndexAfterFreePrefix(head, sep, tail);
    assert s[..|head|] == head;
    assert s[|head| + 1..] == tail;
  }

  /** Splitting the joined fields gives the fields back when none holds the separator. */
  lemma {:induction false} SplitJoin(fields: seq<string>, sep: char)
    requires |fields| >= 1
    requires AllFree(fields, sep)
    ensures Split(Join(fields, sep), sep) == fields
    decreases |fields|
  {
    if |fields| > 1 {
      assert fields == [fields[0]] + fields[1..];
      SplitCons(fields[0], fields[1..], sep, 0);
      SplitJoin(fields[1..], sep);
    }
  }

  /** The `maxsplit` form recovers `n + 1` joined fields when only the last may
      hold the separator. */
  lemma {:induction false} SplitNJoin(fields: seq<string>, sep: char, n: nat)
    requires |fields| == n + 1
    requires forall i :: 0 <= i < n ==> sep !in fields[i]
    ensures SplitN(Join(fields, sep), sep, n) == fields
    decreases n
  {
    if n > 0 {
      assert fields == [fields[0]] + fields[1..];
      SplitCons(fields[0], fields[1..], sep, n - 1);
      SplitNJoin(fields[1..], sep, n - 1);
    }
  }

  // ---------------------------------------------------------------------------
  // Integers as decimal text

  predicate IsDigit(c: char)
  {
    '0' <= c <= '9'
  }

  predicate AllDigits(s: string)
  {
    forall i :: 0 <= i < |s| ==> IsDigit(s[i])
  }

  function DigitChar(d: nat): (c: char)
    requires d < 10
    ensures IsDigit(c)
  {
    (48 + d) as char
  }

  function DigitValue(c: char): (d: nat)
    requires IsDigit(c)
    ensures d < 10 && DigitChar(d) == c
  {
    c as int - 48
  }

  /** Decimal digits of `n`, most significant first, without leading zeros. */
  function NatToString(n: nat): (s: string)
    ensures |s| >= 1 && AllDigits(s)
    decreases n
  {
    if n < 10 then [DigitChar(n)] else NatToString(n / 10) + [DigitChar(n % 10)]
  }

  /** Python's `str(i)` for an integer. */
  function IntToString(i: int): (s: string)
    ensures |s| >= 1
    ensures forall k :: 0 <= k < |s| ==> IsDigit(s[k]) || s[k] == '-'
  {
    if i < 0 then "-" + NatToString(-i) else NatToString(i)
  }

  /** Value of a string of decimal digits (leading zeros allowed). */
  function DigitsValue(s: string): nat
    requires AllDigits(s)
    decreases |s|
  {
    if |s| == 0 then 0 else DigitsValue(s[..|s| - 1]) * 10 + DigitValue(s[|s| - 1])
  }

  /** Python's `int(s)` restricted to an optional sign followed by ASCII digits;
      `None` stands for the `ValueError` it raises otherwise. */
  function ParseInt(s: string): (r: Option<int>)
    ensures r.Some? ==> |s| >= 1
  {
    var negative := |s| > 0 && s[0] == '-';
    var body := if |s| > 0 && (s[0] == '-' || s[0] == '+') then s[1..] else s;
    if |body| == 0 || !AllDigits(body) then None
    else if negative then Some(0 - DigitsValue(body))
    else Some(DigitsValue(body))
  }

  lemma {:induction false} DigitsOfNat(n: nat)
    ensures DigitsValue(NatToString(n)) == n
    decreases n
  {
    var s := NatToString(n);
    if n >= 10 {
      DigitsOfNat(n / 10);
      assert s[..|s| - 1] == NatToString(n / 10);
    }
  }

  /** `int(str(i)) == i`. */
  lemma ParseIntToString(i: int)
    ensures ParseInt(IntToString(i)) == Some(i)
  {
    var digits := NatToString(if i < 0 then -i else i);
    DigitsOfNat(if i < 0 then -i else i);
    if i < 0 {
      assert IntToString(i)[1..] == digits;
    }
  }

  /** Different integers render to different strings. */
  lemma IntToStringInjective(a: int, b: int)
    requires a != b
    ensures IntToString(a) != IntToString(b)
  {
    ParseIntToString(a);
    ParseIntToString(b);
  }

  /** A rendered integer never holds the command separator. */
  lemma IntToStringDelimFree(i: int)
    ensures Delim !in IntToString(i)
  {
  }
}

=== FILE: wrappers.dfy ===
/** The optional-value datatype used for dictionary lookups that may miss. */
module Wrappers {

  datatype Option<+T> = None | Some(value: T) {

    /** The carried value, or `default` when there is none (Python's `d.get(k, default)`). */
    function GetOr(default: T): T {
      match this
      case Some(v) => v
      case None => default
    }
  }
}
